=== FILE: README.md ===
# IR and amplifier codecs of a Home Assistant setup, in Dafny

This project models three small codecs from a home-automation repository:

- **IR pulse codec** (`irtoy/irEncDec.py`). Several parts:
  - **Commands.** The `IrCmd` value type, with its equality, hash and 1.5-second repeat filter.
  - **Encoders.** They turn raw, Sony and Humax commands into the IR Toy's big-endian 16-bit on/off byte quadruples.
  - **Demultiplexer.** It reassembles those quadruples from the received byte stream, with its 0..3 byte counter and its resync on a double 0xFF.
  - **Decoders.** There are three: the Sony decoder (accepts a frame only when it repeats the previous one), the Humax decoder (a four-state machine), and the raw template matcher.
  - **`processCommand`.** It suppresses repeats and names a command after the first equal entry of the known-command table.
  - **Tables.** The raw templates and the known commands are transcribed as constants.
- **Sony amplifier frame codec** (`sonyamp/ampCtrl.py`, class `AmpCmd`). It covers:
  - the checksum;
  - the serialiser: 0x02, length, body, checksum;
  - the parser with its zone extraction;
  - the memory read/write builders and their accessors;
  - command equality.
- **IrMan receiver** (`irman/IrMan.py`). It covers:
  - `IrManCmd` equality, hash and repeat filter;
  - the code string formatted from the six bytes read;
  - the decision made on each turn of the `run` loop: queue the code or suppress it as a repeat, then count idle reads and flush after more than five.

Every state machine is a pure step function from a state and one input (a byte, a duration or an on/off pair) to a new state plus what it emits. A run over a sequence of inputs is a fold of that step.

Time values are modelled as follows:
- Durations are integers counting IR Toy sample periods.
- The source's float constants become exact integer windows, because every observed duration is an integer. The sample period is 21.333333333 µs.

  | Window | Range |
  |---|---|
  | Sony 1T | 23..34 |
  | Sony 2T | 51..62 |
  | Sony start | 107..118 |
  | Sony end-of-frame gap | ≥ 113 |

- The encoder truncates its durations with `int()`, so the Sony encoder sends 28, 56, 112 and 1875. The Humax windows are the nominal values ±4.
- Timestamps are integer milliseconds passed in as parameters. The 1.5 s repeat window becomes a strict comparison with 1500.

Python's `>> 8` and `& 0xFF` on non-negative integers become `/ 256` and `% 256`. Python's `|` on naturals is modelled exactly by `Bits.BitOr`, and lemmas show it equals `+` when the bits are disjoint.

The main results:

- **Encode→decode round trips.**
  - Feed `encodeSony(d, w)` byte by byte through the receiver. Its Sony decoder produces `(d mod 2^w, w)` twice, on frames two and three. `encodeHumax(d, w)` produces `(d mod 2^w, w)` once.
  - End to end from start-up, with the integration's own tables, one chunk holding either command delivers exactly that command, once, named by the known-command table. The raw matcher and the other decoder stay silent, and for Sony the repeat filter drops the second detection.
  - A raw template sent alone to the matcher is recognised.
- **Staged receiver.** Decoding a chunk byte by byte is the same as first demultiplexing the chunk into completed values and then decoding those values. Inside that, the Sony and Humax decoders see each complete pair exactly once and behave as they do on their own.
- **Amplifier frames.** Parsing a serialised command gives it back: pdc, cmd, zone and value (a missing value reads back as empty), with `expResp` reset. Serialising a parsed body reproduces the frame. The checksum is the unique byte that brings the length plus the byte sum to 0 mod 256.
- **IrMan.**
  - A full read is queued exactly when it is not a repeat of the previous one.
  - A held button is queued once.
  - The idle count never leaves 0..5, and a stretch of k idle reads flushes ⌊(c+k)/6⌋ times.
  - Distinct byte strings format to distinct code strings.

## Model

| member | source | states |
|---|---|---|
| IrCommand.SameCommand | homeassistant/components/irtoy/irEncDec.py:68-76 | two commands are equal exactly when they agree on everything except name and timestamp |
| IrCommand.HashConsistent | homeassistant/components/irtoy/irEncDec.py:79-80 | the hash key (type, width, data) is equal exactly when the commands are equal |
| IrCommand.RepeatOf | homeassistant/components/irtoy/irEncDec.py:83-86 | a repeat is an equal command whose timestamps differ by strictly less than 1500 ms in either direction |
| IrCommand.RepeatOfSymmetric | homeassistant/components/irtoy/irEncDec.py:83-86 | the repeat relation is symmetric |
| IrCommand.RepeatWindowExclusive | homeassistant/components/irtoy/irEncDec.py:85-86 | exactly 1500 ms apart is not a repeat, 1499 ms is |
| IrCommand.FirstMatch | homeassistant/components/irtoy/irEncDec.py:254-256 | the index found is the first equal entry of the table, and none is found exactly when no entry is equal |
| IrEncoder.EncodeRawData | homeassistant/components/irtoy/irEncDec.py:114-121 | appends exactly four bytes, the on time then the off time, each high byte first, and keeps what was there |
| IrEncoder.EncodePulses | homeassistant/components/irtoy/irEncDec.py:114-121 | a pulse train becomes four bytes per pulse, and quadruple j reads back as pulse j |
| IrEncoder.EncodeRaw | homeassistant/components/irtoy/irEncDec.py:102-111 | values are paired on/off, giving ⌊n/2⌋ quadruples, with quadruple j holding values 2j and 2j+1; a trailing odd value is dropped |
| IrEncoder.SonyBitPulses | homeassistant/components/irtoy/irEncDec.py:133-145 | one pulse per remaining bit, pulse i being the pulse of bit k+i |
| IrEncoder.SonyPulsesFrames | homeassistant/components/irtoy/irEncDec.py:128-145 | the Sony train is two frames ending in the 1875 gap followed by one ending in 0xFFFF |
| IrEncoder.SonyShape | homeassistant/components/irtoy/irEncDec.py:124-147 | 12(w+1) bytes; three frames, each a (112, 28) start then w bit pulses, with on time 56 for a one and 28 for a zero, LSB first, off 28 inside a frame and 1875 after frames one and two; 0xFFFF is the off time of the last pulse and of no other |
| IrEncoder.SonyPulsesInRange | homeassistant/components/irtoy/irEncDec.py:124-147 | every Sony duration fits in 16 bits |
| IrEncoder.HumaxBitPulses | homeassistant/components/irtoy/irEncDec.py:156-161 | one pulse per remaining bit, pulse i being the pulse of bit k+i |
| IrEncoder.HumaxShape | homeassistant/components/irtoy/irEncDec.py:150-166 | 4(w+4) bytes; a (418, 210) start, then w pulses with on time 26 and off time 78 for a one and 26 for a zero, then the tail (26, 2236), (418, 105), (26, 0xFFFF) |
| IrEncoder.HumaxPulsesInRange | homeassistant/components/irtoy/irEncDec.py:150-166 | every Humax duration fits in 16 bits |
| IrEncoder.Encode | homeassistant/components/irtoy/irEncDec.py:89-111 | dispatches on the command type to the Sony or Humax encoder, or pairs a raw command's durations so that quadruple j holds values 2j and 2j+1 (⌊n/2⌋ quadruples); an unknown type encodes to nothing |
| PulseDemux.DemuxStep | homeassistant/components/irtoy/irEncDec.py:396-422 | the byte counter cycles 0→1→2→3→0, a 0xFF after a 0xFF forces it to 0, an on time completes on byte 1 and a pair on byte 3, and the on time survives the off-time bytes |
| PulseDemux.DemuxRun | homeassistant/components/irtoy/irEncDec.py:396-423 | one completed-value slot per byte received |
| PulseDemux.DemuxQuad | homeassistant/components/irtoy/irEncDec.py:399-412 | four bytes with no double 0xFF in the first three assemble big-endian to on = a·256+b and off = c·256+d, and return the counter to 0 |
| PulseDemux.DemuxRunAppend | homeassistant/components/irtoy/irEncDec.py:392-423 | demultiplexing two chunks in turn is demultiplexing their concatenation |
| SonyDecoder.SonyStep | homeassistant/components/irtoy/irEncDec.py:345-389 | a start pulse arms an empty frame and ends an error-free frame in progress, passing it on only when it repeats the previous frame; the error flag is cleared only by a start, and while it is set the frame's data and bit count are kept; an end-of-burst gap after a good bit rotates the previous frame and passes it on only when data and bit count repeat; any non-bit pulse spoils the frame without rotating; inside a frame every pulse adds one bit above those taken, a one exactly for a 2T on time |
| SonyDecoder.SonyRunAppend | homeassistant/components/irtoy/irEncDec.py:345-389 | the Sony decoder over two pulse trains in turn is the decoder over their concatenation |
| HumaxDecoder.HumaxStep | homeassistant/components/irtoy/irEncDec.py:299-342 | the state stays in 0..3; a command is emitted exactly from state 3 with a 1T on time, carrying the data and bit count collected; state 3 always returns to 0; a start resets data and bit count, and any other pulse leaves an idle decoder unchanged; a non-1T on time in state 1 or an unmatched pulse returns to 0; the data-end pulse moves to state 2 keeping the data and bit count |
| HumaxDecoder.HumaxBitAppends | homeassistant/components/irtoy/irEncDec.py:320-322 | a 1T or 3T off time appends one bit above the bits collected, 1 exactly for 3T |
| HumaxDecoder.HumaxRunAppend | homeassistant/components/irtoy/irEncDec.py:299-342 | the Humax decoder over two pulse trains in turn is the decoder over their concatenation |
| RawDecoder.RawDetections | homeassistant/components/irtoy/irEncDec.py:283-284 | a matched template is reported as a Raw command with the template as data and width 0 |
| RawDecoder.StartCandidates | homeassistant/components/irtoy/irEncDec.py:265-271 | the candidates are templates whose first value is within ±4 of the duration, and every such template is one |
| RawDecoder.StartCandidatesAppend | homeassistant/components/irtoy/irEncDec.py:265-271 | the candidates of a table in two parts are those of the first part followed by those of the second, so they come in table order |
| RawDecoder.StartCandidatesOne | homeassistant/components/irtoy/irEncDec.py:266-271 | a single template is a candidate exactly when its first value is within ±4 of the duration |
| RawDecoder.RemoveFirst | homeassistant/components/irtoy/irEncDec.py:289-290 | removes one occurrence of the element if present, one fewer in the multiset, and changes nothing otherwise |
| RawDecoder.IndexOf | homeassistant/components/irtoy/irEncDec.py:289-290 | the index found holds the element and no earlier index does |
| RawDecoder.RemoveFirstKeepsOrder | homeassistant/components/irtoy/irEncDec.py:289-290 | `list.remove` drops the first occurrence: the result is the elements before it followed by those after it, in order |
| RawDecoder.ScanCandidates | homeassistant/components/irtoy/irEncDec.py:275-290 | the candidate scan only removes candidates, each match uses one up, and every match fits the duration and ends right after it |
| RawDecoder.ScanKeeps | homeassistant/components/irtoy/irEncDec.py:275-290 | a candidate that fits the duration and does not end after it is never removed: every copy of it stays |
| RawDecoder.RawStep | homeassistant/components/irtoy/irEncDec.py:263-296 | 0xFFFF resets position and candidates; otherwise the position advances by one; at position 0 fitting templates are appended; later, candidates are only removed, every match completes its template, and every copy of a candidate that fits and goes on is kept |
| RawDecoder.RawStepKeepsInvariant | homeassistant/components/irtoy/irEncDec.py:263-296 | between durations there are no candidates at position 0 and every candidate is a template, so at position 0 the candidates become exactly the fitting templates and every match is a template |
| RawDecoder.RawReplaySingle | homeassistant/components/irtoy/irEncDec.py:263-296 | a template replayed to a matcher that holds only it is matched once, and the matcher returns to its initial state |
| RawDecoder.SkippedCandidateIsMissed | homeassistant/components/irtoy/irEncDec.py:275-290 | removing from the list being iterated skips the next candidate, so a template can be missed although the durations fit it |
| IrReceiver.ValueStepKinds | homeassistant/components/irtoy/irEncDec.py:399-412 | an on time goes only to the raw matcher; a pair sends its off time to the raw matcher and the pair to the Sony and the Humax decoder, whose detections are theirs; nothing else moves a decoder |
| IrReceiver.DecodeBytesStaged | homeassistant/components/irtoy/irEncDec.py:392-423 | decoding bytes one at a time equals demultiplexing the chunk, then decoding the completed values in order |
| IrReceiver.DecodePulseValues | homeassistant/components/irtoy/irEncDec.py:396-412 | the values of a pulse train (nothing, on, nothing, pair per pulse) decode as the pulses do |
| IrReceiver.PulseRunKinds | homeassistant/components/irtoy/irEncDec.py:404-412 | inside the receiver the Sony and Humax decoders reach the same state and make the same detections, in order, as on their own |
| IrReceiver.ProcessCommand | homeassistant/components/irtoy/irEncDec.py:249-260 | a command is delivered exactly when it is not a repeat of the previous one, and it becomes the previous command whether delivered or not |
| IrReceiver.DeliveredName | homeassistant/components/irtoy/irEncDec.py:254-256 | a delivered command carries the name of the first equal known command, and no name when none is equal |
| IrReceiver.RepeatedDetectionDeliveredOnce | homeassistant/components/irtoy/irEncDec.py:249-260 | the same detection twice in one chunk is delivered once, or not at all when the first repeats the previous command |
| IrReceiver.ProcessCommandsAtMost | homeassistant/components/irtoy/irEncDec.py:249-260 | no more commands are delivered than detections were made |
| IrReceiver.Receive | homeassistant/components/irtoy/irEncDec.py:249-260 | a chunk delivers at most as many commands as its bytes produce detections |
| IrRoundTrip.DemuxPulse | homeassistant/components/irtoy/irEncDec.py:396-412 | the four encoded bytes of a pulse demultiplex back to its on time and its on/off pair |
| PulseDemux.DemuxReset | homeassistant/components/irtoy/irEncDec.py:428-434 | re-initialising the transceiver sets the byte counter to 0 and keeps the last byte and the partial on/off times (sending a burst does the same, irEncDec.py:488) |
| IrReceiver.ReceiverReset | homeassistant/components/irtoy/irEncDec.py:482-489 | the re-initialisation and the reset after a transmission touch only the byte counter; every decoder's state is kept |
| IrRoundTrip.ResetRealigns | homeassistant/components/irtoy/irEncDec.py:396-434 | after a reset, whatever the counter was, the four bytes of the next pulse demultiplex back to its on time and its on/off pair |
| IrRoundTrip.DemuxEncoded | homeassistant/components/irtoy/irEncDec.py:392-423 | an encoded pulse train none of whose pulses can fake a double 0xFF demultiplexes to exactly its values, ending between pulses |
| IrRoundTrip.DecodeEncoded | homeassistant/components/irtoy/irEncDec.py:392-423 | the encoded bytes of such a train run the decoders over exactly that train |
| IrRoundTrip.SonyFrameRun | homeassistant/components/irtoy/irEncDec.py:345-389 | one Sony frame of d, w bits, rotates the previous frame to (d mod 2^w, w) and is passed on exactly when it repeats the frame remembered before it |
| IrRoundTrip.SonyPulsesDecode | homeassistant/components/irtoy/irEncDec.py:345-389 | the three encoded frames sent to a decoder waiting for a start, not remembering a w-bit frame, produce the command twice |
| IrRoundTrip.SonyPulsesSendable | homeassistant/components/irtoy/irEncDec.py:124-147 | every Sony pulse fits 16 bits and cannot produce a false double 0xFF resync |
| IrRoundTrip.SonyRoundTrip | homeassistant/components/irtoy/irEncDec.py:124-423 | `encodeSony(d, w)` through the receiver yields (d mod 2^w, w) as a Sony detection exactly twice and no other Sony detection |
| IrRoundTrip.HumaxPulsesDecode | homeassistant/components/irtoy/irEncDec.py:299-342 | the encoded Humax train sent to the idle decoder produces (d mod 2^w, w) exactly once |
| IrRoundTrip.HumaxPulsesSendable | homeassistant/components/irtoy/irEncDec.py:150-166 | every Humax pulse fits 16 bits and cannot produce a false double 0xFF resync |
| IrRoundTrip.HumaxRoundTrip | homeassistant/components/irtoy/irEncDec.py:150-423 | `encodeHumax(d, w)` through the receiver yields (d mod 2^w, w) as the one and only Humax detection |
| IrEndToEnd.NoStartCandidates | homeassistant/components/irtoy/irEncDec.py:265-271 | a duration within ±4 of no template's first value opens no candidate |
| IrEndToEnd.RawStepQuiet | homeassistant/components/irtoy/irEncDec.py:263-296 | with no candidates, such a duration leaves the raw matcher empty and matches nothing |
| IrEndToEnd.PulseStepSonyOnly | homeassistant/components/irtoy/irEncDec.py:396-412 | while the raw matcher is empty and the Humax decoder idles, a pulse that starts neither gives exactly the Sony decoder's detections |
| IrEndToEnd.PulseStepHumaxOnly | homeassistant/components/irtoy/irEncDec.py:396-412 | while the raw matcher is empty and the Sony decoder waits for a start, a pulse that starts neither gives exactly the Humax decoder's detections |
| IrEndToEnd.PulseRunSonyOnly | homeassistant/components/irtoy/irEncDec.py:392-423 | over a train of such pulses the receiver's detections are those of the Sony decoder alone |
| IrEndToEnd.PulseRunHumaxOnly | homeassistant/components/irtoy/irEncDec.py:392-423 | over a train of such pulses the receiver's detections are those of the Humax decoder alone |
| IrEndToEnd.RawTemplateStarts | homeassistant/components/irtoy/irEncDec.py:173-204 | the captured raw signals start with 11, 425 or 426 |
| IrEndToEnd.SonyTimesSonyOnly | homeassistant/components/irtoy/irEncDec.py:124-147 | the Sony durations 112, 28, 56, 1875 and 0xFFFF open no raw candidate and are no Humax start |
| IrEndToEnd.HumaxTimesHumaxOnly | homeassistant/components/irtoy/irEncDec.py:150-166 | the Humax durations open no raw candidate and are no Sony start |
| IrEndToEnd.TwiceDeliveredOnce | homeassistant/components/irtoy/irEncDec.py:249-260 | from start-up, the same detection twice in a chunk delivers exactly one command, that detection stamped and named |
| IrEndToEnd.OnceDelivered | homeassistant/components/irtoy/irEncDec.py:249-260 | from start-up, a single detection in a chunk is delivered, stamped and named |
| IrEndToEnd.SonyDecodedFromStart | homeassistant/components/irtoy/irEncDec.py:124-423 | from start-up, the bytes of `encodeSony(d, w)` give exactly two detections, both (d mod 2^w, w) as Sony |
| IrEndToEnd.HumaxDecodedFromStart | homeassistant/components/irtoy/irEncDec.py:150-423 | from start-up, the bytes of `encodeHumax(d, w)` give exactly one detection, (d mod 2^w, w) as Humax |
| IrEndToEnd.SonyReceivedOnce | homeassistant/components/irtoy/irEncDec.py:124-423 | from start-up with the real tables, one chunk holding `encodeSony(d, w)` delivers exactly one command: Sony, data d mod 2^w, width w, stamped now and named by the known-command table |
| IrEndToEnd.HumaxReceivedOnce | homeassistant/components/irtoy/irEncDec.py:150-423 | from start-up with the real tables, one chunk holding `encodeHumax(d, w)` delivers exactly one command: Humax, data d mod 2^w, width w, stamped now and named |
| IrTables.RawTemplatesReplayable | homeassistant/components/irtoy/irEncDec.py:173-204 | every raw template has at least three values, ends in 0xFFFF and has no other 0xFFFF |
| IrTables.KnownCommandsDistinct | homeassistant/components/irtoy/irEncDec.py:206-225 | no two known commands are equal, so the first match is the only one |
| IrTables.CdPlayName | homeassistant/components/irtoy/irEncDec.py:207 | Sony 2226 with 12 bits is named "CD Play" |
| IrTables.PvrOnName | homeassistant/components/irtoy/irEncDec.py:223 | Humax 4077654016 with 32 bits is named "PVR On" |
| IrTables.WrongWidthUnnamed | homeassistant/components/irtoy/irEncDec.py:206-225 | the CD Play data with 15 bits matches no known command, so the width is part of equality |
| SonyAmp.Checksum | homeassistant/components/sonyamp/ampCtrl.py:111-115 | a byte that brings length plus byte sum plus itself to 0 mod 256 |
| SonyAmp.ChecksumUnique | homeassistant/components/sonyamp/ampCtrl.py:111-115 | it is the only byte that does |
| SonyAmp.GenCrc | homeassistant/components/sonyamp/ampCtrl.py:111-115 | the loop returns a value in 0..255 making length plus sum plus checksum 0 mod 256 |
| SonyAmp.Body | homeassistant/components/sonyamp/ampCtrl.py:119-124 | the body is pdc, cmd, then the zone when present (zone 0 included), then the value when non-empty |
| SonyAmp.Frame | homeassistant/components/sonyamp/ampCtrl.py:118-129 | 0x02, the body length, the body, the checksum; the bytes after 0x02 sum to 0 mod 256; no frame exactly when a body value is not a byte or the body is 256 long or more |
| SonyAmp.Interpret | homeassistant/components/sonyamp/ampCtrl.py:89-94 | byte 2 is popped as the zone exactly when (pdc, cmd) is a zone command, the value is always present (possibly empty), and the command's body is the data it was read from |
| SonyAmp.AmpCmdFromDataAsWritten | homeassistant/components/sonyamp/ampCtrl.py:80-95 | nothing for three bytes or fewer; for longer data with a bad checksum, the cmd byte itself; otherwise a command whose body is the data before the checksum |
| SonyAmp.AmpCmdFromData | homeassistant/components/sonyamp/ampCtrl.py:80-95 | a command exactly when there are more than three bytes and the last is the checksum of the rest; it has the data's pdc and cmd, the zone exactly for zone commands, a value always present, and the data as its body |
| SonyAmp.AsWrittenAcceptsAnyLongBody | homeassistant/components/sonyamp/ampCtrl.py:84-95 | the as-written parser returns something for every input longer than three bytes, and agrees with the corrected one wherever it returns a command |
| SonyAmp.BadChecksumAccepted | homeassistant/components/sonyamp/ampCtrl.py:86-88 | a frame with a wrong checksum gives the cmd byte as written and nothing once corrected |
| SonyAmp.ParseFrame | homeassistant/components/sonyamp/ampCtrl.py:80-129 | for a framable command with a body of three bytes or more whose zone is present exactly for zone commands, parsing the frame recovers pdc, cmd, zone and value, with a missing value read back as empty and expResp empty |
| SonyAmp.FrameParsed | homeassistant/components/sonyamp/ampCtrl.py:80-129 | serialising a parsed command reproduces the frame it was parsed from |
| SonyAmp.EmptyValueIndistinguishable | homeassistant/components/sonyamp/ampCtrl.py:123-124 | a missing and an empty value give the same frame, though the commands differ |
| SonyAmp.SameAmpCmdIsEquality | homeassistant/components/sonyamp/ampCtrl.py:155-163 | commands are equal exactly when pdc, cmd, value, expResp and zone all are |
| SonyAmp.AmpMemWriteCmd | homeassistant/components/sonyamp/ampCtrl.py:99-102 | a memory write to the amplifier, not a read, with no zone and no expected response |
| SonyAmp.AmpMemReadCmd | homeassistant/components/sonyamp/ampCtrl.py:106-108 | a memory read from the amplifier, not a write, with no zone and no expected response |
| SonyAmp.MemWriteAccessors | homeassistant/components/sonyamp/ampCtrl.py:132-152 | a write command reads back address space 2, its address, the data length at value[3], and its data |
| SonyAmp.MemReadAccessors | homeassistant/components/sonyamp/ampCtrl.py:132-152 | a read command reads back address space 2, its address, its size, and no data |
| SonyAmp.MemWriteFrameable | homeassistant/components/sonyamp/ampCtrl.py:99-129 | a memory write can be framed exactly when the address is below 65536, the data are bytes, and there are at most 249 of them |
| SonyAmp.MemWriteRoundTrip | homeassistant/components/sonyamp/ampCtrl.py:80-152 | a framable memory write, framed and parsed back, reads back its address and data |
| SonyAmp.Zone1OnFrame | homeassistant/components/sonyamp/ampCtrl.py:182 | the zone-1 power-on command goes on the wire as 02 04 A0 60 00 01 FB |
| IrMan.HashConsistent | homeassistant/components/irman/IrMan.py:20-27 | equality depends on the code string only, and the hash agrees with it |
| IrMan.RepeatOfWindow | homeassistant/components/irman/IrMan.py:29-34 | a repeat is an equal code less than 1500 ms away either way; the relation is symmetric, and exactly 1500 ms is not a repeat |
| IrMan.HexByte | homeassistant/components/irman/IrMan.py:67 | one hex digit for a byte below 16, two from 16 up, never a colon |
| IrMan.Format | homeassistant/components/irman/IrMan.py:67 | the colon-joined string is non-empty for a non-empty read and has no colon for a read of one byte or none |
| IrMan.FormatInjective | homeassistant/components/irman/IrMan.py:67 | different reads give different code strings |
| IrMan.ReadEquality | homeassistant/components/irman/IrMan.py:20-24 | two commands made from reads are equal exactly when the bytes read are |
| IrMan.Step | homeassistant/components/irman/IrMan.py:61-78 | a six-byte read is queued exactly when it does not repeat the previous command and becomes the previous command; a short read queues nothing, counts one idle read, and flushes and resets when the count passes 5 |
| IrMan.StepKeepsIdleBound | homeassistant/components/irman/IrMan.py:72-78 | an idle count in 0..5 stays in 0..5 |
| IrMan.FirstCodeQueued | homeassistant/components/irman/IrMan.py:58-70 | starting from the empty previous command, the first full read is queued |
| IrMan.Run | homeassistant/components/irman/IrMan.py:60-78 | at most one command is queued per read |
| IrMan.RunKeepsIdleBound | homeassistant/components/irman/IrMan.py:57-78 | over any run the idle count stays in 0..5 |
| IrMan.IdleStretch | homeassistant/components/irman/IrMan.py:72-78 | k short reads from count c queue nothing, flush ⌊(c+k)/6⌋ times and leave the count at (c+k) mod 6 |
| IrMan.HeldButtonQueuedOnce | homeassistant/components/irman/IrMan.py:66-71 | the same code read repeatedly, each read within the window of the previous one, is never queued again |
| IrMan.HeldButtonFromStart | homeassistant/components/irman/IrMan.py:57-71 | from start-up, a held button is queued exactly once, on its first read |

## Left out

- Serial and device plumbing in `irEncDec.py` is not modelled:
  - `_irToyInit`, `recieveData`, `sendData` and `sendBurst` (handshake, 32-byte chunks, transmit report, retries);
  - the `run` loop with its sleeps, RX→TX guard and watchdog;
  - `transmitCmd`, `close` and the command-line entry point.
  
  Apart from one effect, these are I/O against a device. The model starts where bytes arrive (`decodeRawData`) and ends where bytes leave (`encode`). The exception is that `_irToyInit` and `sendBurst` each end by setting `rawByteCount` to 0 (irEncDec.py:434 and :488). `_irToyInit` runs at start-up, from the idle watchdog after more than 50 idle loops, and twice per transmit attempt. That reset is modelled as `PulseDemux.DemuxReset` and `IrReceiver.ReceiverReset`. The caller applies it between two received chunks whenever a transmission or a watchdog re-initialisation came between them. `PulseDemux.DemuxRunAppend`, and a `Receive` carried across chunks, describe the program only when no such reset came in between.
- The `AmpCtrl` thread (`sendCmd`, `recieveData`, `pollStatus`, `run` and the command-line entry) is serial I/O with sleeps and is not modelled. Its `pollStatus` refers to names that are not defined.
- The IrMan serial port set-up, the `print` of each read and `close` are not modelled. The device read becomes an input sequence of reads, and `flushInput` becomes a flag on the step's result.
- The `__str__` methods are used only for logging and trigger strings. The `AmpCmd.__hash__` method raises on a missing value.
- The Home Assistant entity, config-flow, trigger and action modules are not part of this model.
- Floating point is not modelled. Each float tolerance window is the integer interval it admits for integer durations, and the encoder's `int()` truncation is applied to the constants.
- Clocks: each command's `time.time()` is an integer millisecond timestamp.
  - `IrReceiver.Receive` stamps every command of one received chunk with the same `now`. The source reads the clock once per command, microseconds apart.
- IrEncoder.EncodeRawData: requires both durations in 0..0xFFFF. Outside that range the source either raises or writes a malformed group, and the model describes neither.
  - Above 0xFFFF, `'%.2x' % (t >> 8)` has more than two hex digits.
  - With an odd number of digits, `binascii.unhexlify` raises, e.g. for 0x10000..0xFFFFF.
  - With an even number, it silently writes extra bytes. For 0x100000..0xFFFFFF the high part is two bytes, so the group is five bytes long.
  - A negative value gives a hex string with a minus sign, and `unhexlify` raises.
- IrEncoder.EncodeRaw: requires every value in 0..0xFFFF, for the same reason.
- IrEncoder.Encode: requires a Sony or Humax command to carry integer data and a raw one a duration list (`Encodable`). The source would fail on any other shape.
- RawDecoder.RawReplaySingle: the raw round trip is proved for a matcher whose table holds only the template replayed. With the full table, other templates that fit the same durations share the candidate list, and the skip after a removal (`SkippedCandidateIsMissed`) can hide a match.
- SonyAmp.MemAddr: requires the two address bytes of the value to be non-negative, as `|` on naturals is what `Bits.BitOr` models. Every command built by `AmpMemWriteCmd`/`AmpMemReadCmd` for a non-negative address satisfies this.
- SonyAmp.Frame: a byte outside 0..255 or a body of 256 bytes or more makes `to_bytes(1)` raise in the source. The model returns no frame instead.
- The raw matcher's candidate-list skip is modelled as written, not corrected. It is shown by `RawDecoder.SkippedCandidateIsMissed` rather than logged under Findings, because the rest of the receiver keeps the source's behaviour.

## Findings

| source | as written | input that shows it | evidently intended | confidence | as-written member | corrected member |
|---|---|---|---|---|---|---|
| homeassistant/components/sonyamp/ampCtrl.py:80-95 | on a checksum mismatch with more than three bytes, `AmpCmdFromData` returns `data[1]` (the cmd byte, an int) instead of `None`, because `cmd` is reused for the result; the receiving caller tests only `!= None` and passes it on | `[0xA0, 0x60, 0x00, 0x01, 0x00]`: the checksum of the first four bytes is 251, not 0, yet the result is `0x60` | return `None` whenever the checksum does not match | not executed | SonyAmp.AmpCmdFromDataAsWritten | SonyAmp.AmpCmdFromData |

=== FILE: bits.dfy ===
/**
 * Integer bit operations with the meaning Python gives them on its
 * unbounded integers: `d >> k`, `x & 1`, `a | b`, `1 << k`.
 */
module Bits {

  /** A byte as read from or written to a serial port. */
  type byte = x: int | 0 <= x < 256

  /** 2^k, the value of Python's `1 << k`. */
  function Pow2(k: nat): (r: nat)
    ensures r >= 1
  {
    if k == 0 then 1 else 2 * Pow2(k - 1)
  }

  /**
   * Python's `(d >> k) & 1`: bit k of d in two's complement. Python's `>>`
   * floors, and Dafny's `/` by a positive divisor floors too, so this holds
   * for negative d as well.
   */
  function Bit(d: int, k: nat): int
  {
    (d / Pow2(k)) % 2
  }

  /** Python's `a | b` on non-negative integers, one binary digit at a time. */
  function BitOr(a: nat, b: nat): (r: nat)
    ensures a <= r && b <= r
    ensures r <= a + b
    decreases a + b
  {
    if a == 0 then b
    else if b == 0 then a
    else 2 * BitOr(a / 2, b / 2) + (if a % 2 == 1 || b % 2 == 1 then 1 else 0)
  }

  /**
   * The number whose binary digits 0..w-1 are those of d and whose higher
   * digits are zero: the value a receiver rebuilds from the w least
   * significant bits of d.
   */
  function LowBits(d: int, w: nat): (r: nat)
    ensures r < Pow2(w)
  {
    if w == 0 then 0 else LowBits(d, w - 1) + (if Bit(d, w - 1) == 1 then Pow2(w - 1) else 0)
  }

  lemma Pow2Step(k: nat)
    ensures Pow2(k + 1) == 2 * Pow2(k)
  {
  }

  /**
   * Or-ing a value below 2^k into x shifted left by k is addition:
   * `(x << k) | y == (x << k) + y` when y < 2^k.
   */
  lemma {:induction false} OrIntoShifted(x: nat, y: nat, k: nat)
    requires y < Pow2(k)
    ensures BitOr(x * Pow2(k), y) == x * Pow2(k) + y
  {
    if k == 0 {
      assert y == 0;
    } else if x == 0 || y == 0 {
    } else {
      var m := x * Pow2(k - 1);
      assert x * Pow2(k) == 2 * m;
      assert y / 2 < Pow2(k - 1);
      OrIntoShifted(x, y / 2, k - 1);
      assert BitOr(x * Pow2(k), y) == 2 * BitOr(m, y / 2) + y % 2;
    }
  }

  /** Or-ing in a bit that x does not have yet adds it: `x | (1 << k) == x + 2^k` when x < 2^k. */
  lemma {:induction false} OrFreshBit(x: nat, k: nat)
    requires x < Pow2(k)
    ensures BitOr(x, Pow2(k)) == x + Pow2(k)
  {
    if x == 0 {
    } else {
      assert k > 0;
      OrFreshBit(x / 2, k - 1);
      assert BitOr(x, Pow2(k)) == 2 * BitOr(x / 2, Pow2(k - 1)) + x % 2;
    }
  }

  /** A byte shifted into the high half and a byte or-ed into the low half give the 16-bit value. */
  lemma OrLowByte(hi: nat, lo: nat)
    requires lo < 256
    ensures BitOr(hi * 256, lo) == hi * 256 + lo
  {
    assert Pow2(8) == 256 by {
      assert Pow2(4) == 16;
    }
    OrIntoShifted(hi, lo, 8);
  }

  lemma MulAtLeast(a: int, n: int)
    requires a >= 1 && n > 0
    ensures a * n >= n
  {
    var e := a - 1;
    assert a * n == e * n + n;
    assert e * n >= 0;
  }

  /** Euclidean division is unique. */
  lemma DivModUnique(d: int, n: int, q: int, r: int)
    requires n > 0 && d == q * n + r && 0 <= r < n
    ensures d / n == q && d % n == r
  {
    var q0, r0 := d / n, d % n;
    assert d == q0 * n + r0 && 0 <= r0 < n;
    assert (q0 - q) * n == r - r0 by {
      assert q0 * n - q * n == r - r0;
    }
    if q0 > q {
      MulAtLeast(q0 - q, n);
    } else if q0 < q {
      MulAtLeast(q - q0, n);
    }
  }

  lemma Regroup(h: int, b: int, m: int, r: int)
    ensures (2 * h + b) * m + r == h * (2 * m) + (b * m + r)
  {
  }

  /** Halving the quotient by m splits the remainder by 2m into the remainder by m and the quotient's low bit. */
  lemma ModDouble(d: int, m: int)
    requires m > 0
    ensures d % (2 * m) == d % m + (if (d / m) % 2 == 1 then m else 0)
  {
    var q, r := d / m, d % m;
    var h, b := q / 2, q % 2;
    var low := if b == 1 then m else 0;
    assert b * m == low;
    Regroup(h, b, m, r);
    assert d == h * (2 * m) + (low + r);
    DivModUnique(d, 2 * m, h, low + r);
  }

  /** The low k+1 bits of d are its low k bits plus bit k. */
  lemma ModPow2Step(d: int, k: nat)
    ensures d % Pow2(k + 1) == d % Pow2(k) + (if Bit(d, k) == 1 then Pow2(k) else 0)
  {
    Pow2Step(k);
    ModDouble(d, Pow2(k));
  }

  /** Rebuilding the low w bits of d gives d mod 2^w (Python's `d % (1 << w)` for w > 0). */
  lemma {:induction false} LowBitsIsMod(d: int, w: nat)
    ensures LowBits(d, w) == d % Pow2(w)
  {
    if w > 0 {
      LowBitsIsMod(d, w - 1);
      ModPow2Step(d, w - 1);
    }
  }

  /** Adding bit w to the low bits through `|` extends them by one bit. */
  lemma LowBitsOr(d: int, w: nat)
    ensures BitOr(LowBits(d, w), if Bit(d, w) == 1 then Pow2(w) else 0) == LowBits(d, w + 1)
  {
    if Bit(d, w) == 1 {
      OrFreshBit(LowBits(d, w), w);
    }
  }
}

=== FILE: humax_decoder.dfy ===
/**
 * The Humax decoder: a start pulse, one pulse per bit (1T on, then 1T off
 * for a zero or 3T off for a one, least significant bit first), a long
 * data-end gap and a two-pulse tail. States: 0 idle, 1 receiving data,
 * 2 expecting the first tail pulse, 3 expecting the second.
 */
module HumaxDecoder {
  import opened Bits
  import opened IrTiming
  import opened IrCommand

  datatype HumaxState = HumaxState(state: int, data: nat, bitCount: nat)

  const HumaxInit := HumaxState(0, 0, 0)

  datatype HumaxOut = HumaxOut(state: HumaxState, detections: seq<Detection>)

  predicate IsHumaxStart(on: int, off: int)
  {
    HumaxNear(on, HumaxStartOn) && HumaxNear(off, HumaxStartOff)
  }

  predicate IsHumaxTail1(on: int, off: int)
  {
    HumaxNear(on, HumaxStartOn) && HumaxNear(off, HumaxTailOff)
  }

  /** `decodeHumax`, one (on, off) pulse. */
  function HumaxStep(s: HumaxState, on: int, off: int): (r: HumaxOut)
    ensures 0 <= r.state.state <= 3
    ensures |r.detections| <= 1
    ensures forall i :: 0 <= i < |r.detections| ==> r.detections[i].kind == KindHumax
    // a command leaves only from state 3, on a 1T on time, with the bits gathered
    ensures |r.detections| == 1 <==> s.state == 3 && HumaxNear(on, HumaxOneT)
    ensures |r.detections| == 1 ==> r.detections[0] == Detection(KindHumax, Bits(s.data), s.bitCount)
    ensures s.state == 3 || !(0 <= s.state <= 3) ==> r.state.state == 0
    // the start pulse resets the frame
    ensures s.state == 0 ==> (r.state.state == 1 <==> IsHumaxStart(on, off))
    // any other pulse leaves an idle decoder as it was
    ensures s.state == 0 && !IsHumaxStart(on, off) ==> r.state == s
    ensures s.state == 0 && IsHumaxStart(on, off) ==> r.state.data == 0 && r.state.bitCount == 0
    // while receiving, the on time must be 1T; the off time says 0, 1 or data end
    ensures s.state == 1 && !HumaxNear(on, HumaxOneT) ==> r.state.state == 0
    ensures s.state == 1 && HumaxNear(on, HumaxOneT) && (HumaxNear(off, HumaxOneT) || HumaxNear(off, HumaxThreeT)) ==>
      r.state == HumaxState(1, BitOr(s.data, if HumaxNear(off, HumaxThreeT) then Pow2(s.bitCount) else 0), s.bitCount + 1)
    // any other off time ends the data, keeping the bits gathered, or drops the frame
    ensures s.state == 1 && HumaxNear(on, HumaxOneT) && !HumaxNear(off, HumaxOneT) && !HumaxNear(off, HumaxThreeT) ==>
      r.state == s.(state := if HumaxNear(off, HumaxDataEndOff) then 2 else 0)
    ensures s.state == 2 ==> r.state.state == (if IsHumaxTail1(on, off) then 3 else 0)
    // the bits only change while receiving or on a start
    ensures !(s.state == 1 || (s.state == 0 && IsHumaxStart(on, off))) ==>
      r.state.data == s.data && r.state.bitCount == s.bitCount
  {
    if s.state == 0 then
      if IsHumaxStart(on, off) then HumaxOut(HumaxState(1, 0, 0), [])
      else HumaxOut(s, [])
    else if s.state == 1 then
      var isOnTime1T := HumaxNear(on, HumaxOneT);
      var isOffTime1T := HumaxNear(off, HumaxOneT);
      var isOffTime3T := HumaxNear(off, HumaxThreeT);
      if !isOnTime1T then HumaxOut(s.(state := 0), [])
      else if isOffTime1T || isOffTime3T then
        HumaxOut(s.(data := BitOr(s.data, if isOffTime3T then Pow2(s.bitCount) else 0),
                    bitCount := s.bitCount + 1), [])
      else if HumaxNear(off, HumaxDataEndOff) then HumaxOut(s.(state := 2), [])
      else HumaxOut(s.(state := 0), [])
    else if s.state == 2 then
      if IsHumaxTail1(on, off) then HumaxOut(s.(state := 3), [])
      else HumaxOut(s.(state := 0), [])
    else if s.state == 3 then
      var emitted := if HumaxNear(on, HumaxOneT) then [Detection(KindHumax, Bits(s.data), s.bitCount)] else [];
      HumaxOut(s.(state := 0), emitted)
    else HumaxOut(s.(state := 0), [])
  }

  /**
   * With the gathered bits below 2^bitCount (as they are from the start
   * pulse on), a data pulse appends bit bitCount, set exactly when the off
   * time is 3T.
   */
  lemma HumaxBitAppends(s: HumaxState, on: int, off: int)
    requires s.state == 1 && s.data < Pow2(s.bitCount)
    requires HumaxNear(on, HumaxOneT) && (HumaxNear(off, HumaxOneT) || HumaxNear(off, HumaxThreeT))
    ensures var r := HumaxStep(s, on, off).state;
      && r.data == s.data + (if HumaxNear(off, HumaxThreeT) then Pow2(s.bitCount) else 0)
      && r.data < Pow2(r.bitCount)
  {
    if HumaxNear(off, HumaxThreeT) {
      OrFreshBit(s.data, s.bitCount);
    }
  }

  /** The decoder run over a pulse train. */
  function HumaxRun(s: HumaxState, ps: seq<Pulse>): HumaxOut
    decreases |ps|
  {
    if |ps| == 0 then HumaxOut(s, [])
    else
      var first := HumaxStep(s, ps[0].on, ps[0].off);
      var rest := HumaxRun(first.state, ps[1..]);
      HumaxOut(rest.state, first.detections + rest.detections)
  }

  /** A run whose first step is known continues from that step's state. */
  lemma HumaxRunAfter(s: HumaxState, ps: seq<Pulse>, first: HumaxOut)
    requires |ps| > 0 && HumaxStep(s, ps[0].on, ps[0].off) == first
    ensures var rest := HumaxRun(first.state, ps[1..]);
      HumaxRun(s, ps) == HumaxOut(rest.state, first.detections + rest.detections)
  {
  }

  /** Running over two trains is running over the first, then the second from where it left off. */
  lemma {:induction false} HumaxRunAppend(s: HumaxState, a: seq<Pulse>, b: seq<Pulse>)
    ensures var ra := HumaxRun(s, a);
      var rb := HumaxRun(ra.state, b);
      HumaxRun(s, a + b) == HumaxOut(rb.state, ra.detections + rb.detections)
    decreases |a|
  {
    if |a| == 0 {
      assert a + b == b;
    } else {
      var ab, rest := a + b, a[1..];
      assert ab[0] == a[0] && ab[1..] == rest + b;
      var first := HumaxStep(s, a[0].on, a[0].off);
      HumaxRunAfter(s, ab, first);
      HumaxRunAfter(s, a, first);
      HumaxRunAppend(first.state, rest, b);
      var ra := HumaxRun(first.state, rest);
      var rb := HumaxRun(ra.state, b);
      assert first.detections + (ra.detections + rb.detections) == (first.detections + ra.detections) + rb.detections;
    }
  }
}

=== FILE: ir_command.dfy ===
/**
 * The IR command value of the IR transceiver integration: what a decoder
 * recognises, what the repeat filter compares and what the encoder sends.
 */
module IrCommand {
  import opened Wrappers

  /** The command types, kept as the strings the integration uses. */
  const KindNull := "Null"
  const KindSony := "Sony"
  const KindHumax := "Humax"
  const KindRaw := "Raw"

  /** Length of the repeat-suppression window, in milliseconds (1.5 s). */
  const RepeatFilterMillis := 1500

  /**
   * The payload: a bit-packed integer for Sony and Humax commands, the
   * alternating on/off durations of a captured signal for raw commands.
   */
  datatype Payload = Bits(n: int) | Pulses(times: seq<int>)

  /**
   * An IR command. `timeStamp` is the creation time in milliseconds; the
   * name is attached by name resolution.
   */
  datatype IrCmd = IrCmd(kind: string, data: Payload, width: int, name: Option<string>, timeStamp: int)

  /** A command recognised by a decoder, before it is time-stamped and named. */
  datatype Detection = Detection(kind: string, data: Payload, width: int)

  /** The command a freshly created decoder compares its first detection against. */
  function NullCmd(timeStamp: int): IrCmd
  {
    IrCmd(KindNull, Bits(0), 0, None, timeStamp)
  }

  /** Command equality: type, width and data; the name and the time take no part. */
  predicate SameCommand(a: IrCmd, b: IrCmd)
    ensures SameCommand(a, b) <==> a.(name := None, timeStamp := 0) == b.(name := None, timeStamp := 0)
  {
    a.kind == b.kind && a.width == b.width && a.data == b.data
  }

  /** What the command's hash is computed from: the same fields equality looks at. */
  function HashKey(c: IrCmd): (string, int, Payload)
  {
    (c.kind, c.width, c.data)
  }

  /** Equal commands have equal hash keys, and so equal hashes. */
  lemma HashConsistent(a: IrCmd, b: IrCmd)
    ensures SameCommand(a, b) <==> HashKey(a) == HashKey(b)
  {
  }

  /**
   * `a.repeatOf(b)`: the commands are equal and their times lie strictly
   * less than the filter window apart.
   */
  predicate RepeatOf(a: IrCmd, b: IrCmd)
    ensures RepeatOf(a, b) <==>
      SameCommand(a, b) && -RepeatFilterMillis < b.timeStamp - a.timeStamp < RepeatFilterMillis
  {
    SameCommand(a, b)
    && a.timeStamp + RepeatFilterMillis > b.timeStamp
    && a.timeStamp - RepeatFilterMillis < b.timeStamp
  }

  /** Being a repeat does not depend on which of the two commands asks. */
  lemma RepeatOfSymmetric(a: IrCmd, b: IrCmd)
    ensures RepeatOf(a, b) <==> RepeatOf(b, a)
  {
  }

  /** Commands exactly one window apart are not repeats of each other: the bound is exclusive. */
  lemma RepeatWindowExclusive(a: IrCmd, b: IrCmd)
    requires SameCommand(a, b)
    ensures b.timeStamp == a.timeStamp + RepeatFilterMillis ==> !RepeatOf(a, b)
    ensures b.timeStamp == a.timeStamp + RepeatFilterMillis - 1 ==> RepeatOf(a, b)
  {
  }

  /** Index of the first entry of `known` equal to `cmd`, if there is one. */
  function FirstMatch(known: seq<IrCmd>, cmd: IrCmd): (r: Option<nat>)
    ensures r.Some? ==> r.value < |known| && SameCommand(known[r.value], cmd)
    ensures r.Some? ==> forall j :: 0 <= j < r.value ==> !SameCommand(known[j], cmd)
    ensures r.None? <==> forall j :: 0 <= j < |known| ==> !SameCommand(known[j], cmd)
  {
    if |known| == 0 then None
    else if SameCommand(known[0], cmd) then Some(0)
    else match FirstMatch(known[1..], cmd)
      case None => None
      case Some(i) => Some(i + 1)
  }

  /** The name resolution attaches: that of the first equal known command, if any. */
  function KnownName(known: seq<IrCmd>, cmd: IrCmd): Option<string>
  {
    match FirstMatch(known, cmd)
    case None => None
    case Some(i) => known[i].name
  }
}

=== FILE: ir_encoder.dfy ===
/**
 * The IR command encoder: turns a command into the byte stream the
 * transceiver plays back, each pulse a big-endian 16-bit on time followed
 * by a big-endian 16-bit off time.
 */
module IrEncoder {
  import opened Bits
  import opened IrTiming
  import opened IrCommand

  predicate InRange16(t: int) { 0 <= t <= 0xFFFF }

  predicate PulseInRange(p: Pulse) { InRange16(p.on) && InRange16(p.off) }

  predicate AllInRange(ps: seq<Pulse>)
  {
    forall i :: 0 <= i < |ps| ==> PulseInRange(ps[i])
  }

  /** The number of bits the encoders loop over: `range(0, w)` is empty for w <= 0. */
  function Width(w: int): nat
  {
    if w > 0 then w else 0
  }

  /**
   * `encodeRawData`: appends the pulse as onHi, onLo, offHi, offLo. The
   * source formats each byte with '%.2x', which only yields one byte for
   * values 0..0xFFFF, hence the precondition.
   */
  function EncodeRawData(rawData: seq<byte>, onTime: int, offTime: int): (r: seq<byte>)
    requires InRange16(onTime) && InRange16(offTime)
    ensures |r| == |rawData| + 4 && r[..|rawData|] == rawData
    ensures (r[|rawData|] as int) * 256 + r[|rawData| + 1] == onTime
    ensures (r[|rawData| + 2] as int) * 256 + r[|rawData| + 3] == offTime
  {
    rawData + [onTime / 256, onTime % 256, offTime / 256, offTime % 256]
  }

  /** The pulse a receiver reassembles from bytes 4j..4j+3. */
  function PulseAt(bytes: seq<byte>, j: nat): Pulse
    requires 4 * j + 4 <= |bytes|
  {
    Pulse((bytes[4 * j] as int) * 256 + bytes[4 * j + 1], (bytes[4 * j + 2] as int) * 256 + bytes[4 * j + 3])
  }

  /** A pulse train as bytes, in order; every pulse can be read back at its index. */
  function EncodePulses(ps: seq<Pulse>): (r: seq<byte>)
    requires AllInRange(ps)
    ensures |r| == 4 * |ps|
    ensures forall j :: 0 <= j < |ps| ==> PulseAt(r, j) == ps[j]
  {
    if |ps| == 0 then []
    else
      var head := EncodeRawData([], ps[0].on, ps[0].off);
      var rest := EncodePulses(ps[1..]);
      var r := head + rest;
      assert forall j :: 1 <= j < |ps| ==> PulseAt(r, j) == PulseAt(rest, j - 1);
      r
  }

  /**
   * `encodeRaw`: the durations taken in (on, off) pairs; a trailing
   * unpaired on time is dropped.
   */
  method EncodeRaw(data: seq<int>) returns (rawData: seq<byte>)
    requires forall i :: 0 <= i < |data| ==> InRange16(data[i])
    ensures |rawData| == 4 * (|data| / 2)
    ensures forall j :: 0 <= j < |data| / 2 ==> PulseAt(rawData, j) == Pulse(data[2 * j], data[2 * j + 1])
  {
    rawData := [];
    var isOnTime := true;
    var onTime := 0;
    var i := 0;
    while i < |data|
      invariant 0 <= i <= |data|
      invariant isOnTime <==> i % 2 == 0
      invariant !isOnTime ==> onTime == data[i - 1]
      invariant |rawData| == 4 * (i / 2)
      invariant forall j :: 0 <= j < i / 2 ==> PulseAt(rawData, j) == Pulse(data[2 * j], data[2 * j + 1])
    {
      if isOnTime {
        onTime := data[i];
      } else {
        ghost var before := rawData;
        rawData := EncodeRawData(rawData, onTime, data[i]);
        assert forall j :: 0 <= j < |before| / 4 ==> PulseAt(rawData, j) == PulseAt(before, j);
      }
      isOnTime := !isOnTime;
      i := i + 1;
    }
  }

  /** Bit k of a Sony frame: 2T on for a one, 1T for a zero; the last bit carries the frame's gap. */
  function SonyBitPulse(d: int, k: nat, w: int, gap: int): Pulse
  {
    Pulse(if Bit(d, k) == 1 then SonyTwoT else SonyOneT, if k == w - 1 then gap else SonyOneT)
  }

  /** The pulses for bits k..w-1 of a Sony frame, least significant first. */
  function SonyBitPulses(d: int, k: nat, w: int, gap: int): (r: seq<Pulse>)
    ensures |r| == if k < w then w - k else 0
    ensures forall i :: 0 <= i < |r| ==> r[i] == SonyBitPulse(d, k + i, w, gap)
    decreases w - k
  {
    if k >= w then [] else [SonyBitPulse(d, k, w, gap)] + SonyBitPulses(d, k + 1, w, gap)
  }

  /** One Sony frame: the start pulse, then one pulse per bit. */
  function SonyFrame(d: int, w: int, gap: int): seq<Pulse>
  {
    [Pulse(SonyStart, SonyOneT)] + SonyBitPulses(d, 0, w, gap)
  }

  /** Frames i..2 of a Sony command; the last one ends with the sentinel instead of the gap. */
  function SonyFrames(d: int, w: int, i: nat): seq<Pulse>
    decreases SonyRepeatFrames - i
  {
    if i >= SonyRepeatFrames then []
    else SonyFrame(d, w, if i == SonyRepeatFrames - 1 then EndOfBurst else SonyFrameGap) + SonyFrames(d, w, i + 1)
  }

  function SonyPulses(d: int, w: int): seq<Pulse>
  {
    SonyFrames(d, w, 0)
  }

  lemma SonyPulsesInRange(d: int, w: int)
    ensures AllInRange(SonyPulses(d, w))
  {
  }

  /** `encodeSony`. */
  function EncodeSony(d: int, w: int): seq<byte>
  {
    SonyPulsesInRange(d, w);
    EncodePulses(SonyPulses(d, w))
  }

  /** A Sony command is two frames ending in the frame gap, then one ending in the sentinel. */
  lemma SonyPulsesFrames(d: int, w: int)
    ensures SonyPulses(d, w)
      == SonyFrame(d, w, SonyFrameGap) + SonyFrame(d, w, SonyFrameGap) + SonyFrame(d, w, EndOfBurst)
  {
    var g, e := SonyFrame(d, w, SonyFrameGap), SonyFrame(d, w, EndOfBurst);
    assert SonyFrames(d, w, 3) == [];
    assert SonyFrames(d, w, 2) == e;
    assert SonyFrames(d, w, 1) == g + e;
    assert SonyFrames(d, w, 0) == g + (g + e);
  }

  /**
   * A Sony command is three frames of w + 1 pulses, 12 (w + 1) bytes; each
   * frame is the start pulse followed by the bits; the sentinel 0xFFFF is
   * the off time of the final pulse and of no other.
   */
  lemma SonyShape(d: int, w: int)
    requires w >= 1
    ensures |EncodeSony(d, w)| == 12 * (w + 1)
    ensures SonyPulses(d, w)
      == SonyFrame(d, w, SonyFrameGap) + SonyFrame(d, w, SonyFrameGap) + SonyFrame(d, w, EndOfBurst)
    ensures var ps := SonyPulses(d, w);
      forall j :: 0 <= j < |ps| ==> (ps[j].off == EndOfBurst <==> j == |ps| - 1)
    ensures var f := SonyFrame(d, w, SonyFrameGap);
      && f[0] == Pulse(SonyStart, SonyOneT)
      && (forall i :: 1 <= i <= w ==> f[i].on == if Bit(d, i - 1) == 1 then SonyTwoT else SonyOneT)
      && (forall i :: 1 <= i < w ==> f[i].off == SonyOneT)
      && f[w].off == SonyFrameGap
  {
    var g, e := SonyFrame(d, w, SonyFrameGap), SonyFrame(d, w, EndOfBurst);
    SonyPulsesFrames(d, w);
    var ps := SonyPulses(d, w);
    assert |g| == w + 1 && |e| == w + 1;
    forall j | 0 <= j < |ps|
      ensures ps[j].off == EndOfBurst <==> j == |ps| - 1
    {
      if j < w + 1 {
        assert ps[j] == g[j];
      } else if j < 2 * (w + 1) {
        assert ps[j] == g[j - (w + 1)];
      } else {
        assert ps[j] == e[j - 2 * (w + 1)];
      }
    }
  }

  /** Bit k of a Humax command: 1T on, then 3T off for a one and 1T off for a zero. */
  function HumaxBitPulse(d: int, k: nat): Pulse
  {
    Pulse(HumaxOneT, if Bit(d, k) == 1 then HumaxThreeT else HumaxOneT)
  }

  function HumaxBitPulses(d: int, k: nat, w: int): (r: seq<Pulse>)
    ensures |r| == if k < w then w - k else 0
    ensures forall i :: 0 <= i < |r| ==> r[i] == HumaxBitPulse(d, k + i)
    decreases w - k
  {
    if k >= w then [] else [HumaxBitPulse(d, k)] + HumaxBitPulses(d, k + 1, w)
  }

  /** The three tail pulses after the data bits, the last ending in the sentinel. */
  const HumaxTail := [Pulse(HumaxOneT, HumaxDataEndOff), Pulse(HumaxStartOn, HumaxTailOff), Pulse(HumaxOneT, EndOfBurst)]

  function HumaxPulses(d: int, w: int): seq<Pulse>
  {
    [Pulse(HumaxStartOn, HumaxStartOff)] + HumaxBitPulses(d, 0, w) + HumaxTail
  }

  lemma HumaxPulsesInRange(d: int, w: int)
    ensures AllInRange(HumaxPulses(d, w))
  {
  }

  /** `encodeHumax`. */
  function EncodeHumax(d: int, w: int): seq<byte>
  {
    HumaxPulsesInRange(d, w);
    EncodePulses(HumaxPulses(d, w))
  }

  /**
   * A Humax command is the start pulse, one pulse per bit (least significant
   * first) and the three-pulse tail: 4 (w + 4) bytes.
   */
  lemma HumaxShape(d: int, w: int)
    requires w >= 0
    ensures |EncodeHumax(d, w)| == 4 * (w + 4)
    ensures var ps := HumaxPulses(d, w);
      && ps[0] == Pulse(HumaxStartOn, HumaxStartOff)
      && (forall i :: 1 <= i <= w ==> ps[i] == Pulse(HumaxOneT, if Bit(d, i - 1) == 1 then HumaxThreeT else HumaxOneT))
      && ps[w + 1..] == HumaxTail
  {
    var bits := HumaxBitPulses(d, 0, w);
    var ps := HumaxPulses(d, w);
    assert ps == [Pulse(HumaxStartOn, HumaxStartOff)] + bits + HumaxTail;
    assert |bits| == w;
    assert ps[w + 1..] == HumaxTail;
    forall i | 1 <= i <= w
      ensures ps[i] == Pulse(HumaxOneT, if Bit(d, i - 1) == 1 then HumaxThreeT else HumaxOneT)
    {
      assert ps[i] == bits[i - 1];
    }
  }

  /** Whether a command is shaped as its type demands: the source fails on any other. */
  predicate Encodable(cmd: IrCmd)
  {
    && (cmd.kind == KindSony || cmd.kind == KindHumax ==> cmd.data.Bits?)
    && (cmd.kind == KindRaw ==> cmd.data.Pulses? && forall i :: 0 <= i < |cmd.data.times| ==> InRange16(cmd.data.times[i]))
  }

  /** `encode`: by command type; an unknown type encodes to nothing. */
  method Encode(cmd: IrCmd) returns (encData: seq<byte>)
    requires Encodable(cmd)
    ensures cmd.kind == KindSony ==> encData == EncodeSony(cmd.data.n, cmd.width)
    ensures cmd.kind == KindHumax ==> encData == EncodeHumax(cmd.data.n, cmd.width)
    ensures cmd.kind == KindRaw ==> |encData| == 4 * (|cmd.data.times| / 2)
    ensures cmd.kind == KindRaw ==> forall j :: 0 <= j < |cmd.data.times| / 2 ==>
      PulseAt(encData, j) == Pulse(cmd.data.times[2 * j], cmd.data.times[2 * j + 1])
    ensures cmd.kind !in {KindSony, KindHumax, KindRaw} ==> encData == []
  {
    if cmd.kind == KindSony {
      encData := EncodeSony(cmd.data.n, cmd.width);
    } else if cmd.kind == KindHumax {
      encData := EncodeHumax(cmd.data.n, cmd.width);
    } else if cmd.kind == KindRaw {
      encData := EncodeRaw(cmd.data.times);
    } else {
      encData := [];
    }
  }
}

=== FILE: ir_end_to_end.dfy ===
/**
 * The whole receive path from start-up, with the integration's own tables:
 * the bytes of one encoded Sony or Humax command, read in one chunk by a
 * freshly started receiver, deliver that command exactly once, stamped with
 * the read time and named by name resolution. The raw matcher and the
 * decoder of the other scheme stay silent throughout.
 */
module IrEndToEnd {
  import opened Wrappers
  import opened Bits
  import opened IrTiming
  import opened IrCommand
  import opened RawDecoder
  import opened SonyDecoder
  import opened HumaxDecoder
  import opened PulseDemux
  import opened IrEncoder
  import opened IrReceiver
  import opened IrRoundTrip
  import opened IrTables

  // ------------------------------------------------------ silent decoders

  /** No template starts near t, so t opens no raw candidate. */
  predicate StartsNone(templates: seq<seq<int>>, t: int)
    requires WellFormedTemplates(templates)
  {
    forall i :: 0 <= i < |templates| ==> !RawNear(t, templates[i][0])
  }

  /** Neither duration of p opens a raw candidate. */
  predicate RawSilent(templates: seq<seq<int>>, p: Pulse)
    requires WellFormedTemplates(templates)
  {
    StartsNone(templates, p.on) && StartsNone(templates, p.off)
  }

  /** A duration that starts no template makes no template a candidate. */
  lemma {:induction false} NoStartCandidates(templates: seq<seq<int>>, time: int)
    requires WellFormedTemplates(templates) && StartsNone(templates, time)
    ensures StartCandidates(templates, time) == []
    decreases |templates|
  {
    if |templates| > 0 {
      var rest := templates[1..];
      assert !RawNear(time, templates[0][0]);
      assert WellFormedTemplates(rest) && StartsNone(rest, time) by {
        assert forall i :: 0 <= i < |rest| ==> rest[i] == templates[i + 1];
      }
      NoStartCandidates(rest, time);
    }
  }

  /** With no candidates, a duration that starts no template leaves the raw matcher empty and silent. */
  lemma RawStepQuiet(templates: seq<seq<int>>, s: RawState, time: int)
    requires WellFormedTemplates(templates) && s.candidates == [] && StartsNone(templates, time)
    ensures RawStep(templates, s, time).matched == []
    ensures RawStep(templates, s, time).state.candidates == []
  {
    NoStartCandidates(templates, time);
    assert s.candidates + StartCandidates(templates, time) == [];
    if s.position > 0 {
      assert ScanCandidates([], 0, s.position, time) == Scan([], []);
    }
  }

  /** The raw matcher after both durations of a pulse: still empty, nothing matched. */
  lemma PulseStepRawQuiet(templates: seq<seq<int>>, d: Decoders, p: Pulse)
    requires WellFormedTemplates(templates) && p.on >= 0 && p.off >= 0
    requires d.raw.candidates == [] && RawSilent(templates, p)
    ensures var first := ValueStep(templates, d, OnValue(p.on));
      var second := ValueStep(templates, first.decoders, PairValue(p.on, p.off));
      && first.detections == []
      && second.detections == SonyStep(first.decoders.sony, p.on, p.off).detections
                              + HumaxStep(first.decoders.humax, p.on, p.off).detections
      && first.decoders.sony == d.sony && first.decoders.humax == d.humax
      && second.decoders.raw.candidates == []
  {
    RawStepQuiet(templates, d.raw, p.on);
    var first := ValueStep(templates, d, OnValue(p.on));
    assert RawDetections([]) == [];
    RawStepQuiet(templates, first.decoders.raw, p.off);
  }

  /**
   * While the raw matcher has nothing to match and the Humax decoder idles
   * without seeing its start pulse, a pulse gives exactly the Sony
   * decoder's detections.
   */
  lemma PulseStepSonyOnly(templates: seq<seq<int>>, d: Decoders, p: Pulse)
    requires WellFormedTemplates(templates) && p.on >= 0 && p.off >= 0
    requires d.raw.candidates == [] && RawSilent(templates, p)
    requires d.humax.state == 0 && !IsHumaxStart(p.on, p.off)
    ensures var r := PulseStep(templates, d, p);
      && r.detections == SonyStep(d.sony, p.on, p.off).detections
      && r.decoders.sony == SonyStep(d.sony, p.on, p.off).state
      && r.decoders.raw.candidates == [] && r.decoders.humax.state == 0
  {
    PulseStepRawQuiet(templates, d, p);
    assert HumaxStep(d.humax, p.on, p.off) == HumaxOut(d.humax, []);
  }

  /**
   * While the raw matcher has nothing to match and the Sony decoder waits
   * for a start pulse it does not see, a pulse gives exactly the Humax
   * decoder's detections.
   */
  lemma PulseStepHumaxOnly(templates: seq<seq<int>>, d: Decoders, p: Pulse)
    requires WellFormedTemplates(templates) && p.on >= 0 && p.off >= 0
    requires d.raw.candidates == [] && RawSilent(templates, p)
    requires d.sony.error && !IsSonyStart(p.on, p.off)
    ensures var r := PulseStep(templates, d, p);
      && r.detections == HumaxStep(d.humax, p.on, p.off).detections
      && r.decoders.humax == HumaxStep(d.humax, p.on, p.off).state
      && r.decoders.raw.candidates == [] && r.decoders.sony.error
  {
    PulseStepRawQuiet(templates, d, p);
    assert SonyStep(d.sony, p.on, p.off).detections == [];
  }

  /** A pulse the raw matcher and the Humax decoder both ignore. */
  predicate SonyOnlyPulse(templates: seq<seq<int>>, p: Pulse)
    requires WellFormedTemplates(templates)
  {
    RawSilent(templates, p) && !IsHumaxStart(p.on, p.off)
  }

  /** A pulse the raw matcher and the Sony decoder both ignore. */
  predicate HumaxOnlyPulse(templates: seq<seq<int>>, p: Pulse)
    requires WellFormedTemplates(templates)
  {
    RawSilent(templates, p) && !IsSonyStart(p.on, p.off)
  }

  /** Over a train of such pulses, the receiver's detections are the Sony decoder's own. */
  lemma {:induction false} PulseRunSonyOnly(templates: seq<seq<int>>, d: Decoders, ps: seq<Pulse>)
    requires WellFormedTemplates(templates) && NonNegative(ps)
    requires d.raw.candidates == [] && d.humax.state == 0
    requires forall j :: 0 <= j < |ps| ==> SonyOnlyPulse(templates, ps[j])
    ensures PulseRun(templates, d, ps).detections == SonyRun(d.sony, ps).detections
    decreases |ps|
  {
    if |ps| > 0 {
      var p, tail := ps[0], ps[1..];
      assert SonyOnlyPulse(templates, p);
      PulseStepSonyOnly(templates, d, p);
      var first := PulseStep(templates, d, p);
      assert NonNegative(tail) && forall j :: 0 <= j < |tail| ==> SonyOnlyPulse(templates, tail[j]) by {
        assert forall j :: 0 <= j < |tail| ==> tail[j] == ps[j + 1];
      }
      PulseRunSonyOnly(templates, first.decoders, tail);
      SonyRunAfter(d.sony, ps, SonyStep(d.sony, p.on, p.off));
    }
  }

  /** Over a train of such pulses, the receiver's detections are the Humax decoder's own. */
  lemma {:induction false} PulseRunHumaxOnly(templates: seq<seq<int>>, d: Decoders, ps: seq<Pulse>)
    requires WellFormedTemplates(templates) && NonNegative(ps)
    requires d.raw.candidates == [] && d.sony.error
    requires forall j :: 0 <= j < |ps| ==> HumaxOnlyPulse(templates, ps[j])
    ensures PulseRun(templates, d, ps).detections == HumaxRun(d.humax, ps).detections
    decreases |ps|
  {
    if |ps| > 0 {
      var p, tail := ps[0], ps[1..];
      assert HumaxOnlyPulse(templates, p);
      PulseStepHumaxOnly(templates, d, p);
      var first := PulseStep(templates, d, p);
      assert NonNegative(tail) && forall j :: 0 <= j < |tail| ==> HumaxOnlyPulse(templates, tail[j]) by {
        assert forall j :: 0 <= j < |tail| ==> tail[j] == ps[j + 1];
      }
      PulseRunHumaxOnly(templates, first.decoders, tail);
      HumaxRunAfter(d.humax, ps, HumaxStep(d.humax, p.on, p.off));
    }
  }

  // ------------------------------------------------------- the durations

  /** The durations the Sony encoder uses. */
  predicate SonyTimes(p: Pulse)
  {
    p.on in {SonyStart, SonyOneT, SonyTwoT} && p.off in {SonyOneT, SonyFrameGap, EndOfBurst}
  }

  /** The durations the Humax encoder uses. */
  predicate HumaxTimes(p: Pulse)
  {
    && p.on in {HumaxStartOn, HumaxOneT}
    && p.off in {HumaxStartOff, HumaxOneT, HumaxThreeT, HumaxDataEndOff, HumaxTailOff, EndOfBurst}
  }

  /** Frames i..2 of a Sony command use only the Sony durations. */
  lemma {:induction false} SonyFramesTimes(d: int, w: int, i: nat)
    ensures var ps := SonyFrames(d, w, i);
      forall j :: 0 <= j < |ps| ==> SonyTimes(ps[j])
    decreases SonyRepeatFrames - i
  {
    if i < SonyRepeatFrames {
      var gap := if i == SonyRepeatFrames - 1 then EndOfBurst else SonyFrameGap;
      var f := SonyFrame(d, w, gap);
      var bits := SonyBitPulses(d, 0, w, gap);
      SonyFramesTimes(d, w, i + 1);
      var rest := SonyFrames(d, w, i + 1);
      var ps := SonyFrames(d, w, i);
      assert ps == f + rest;
      forall j | 0 <= j < |ps|
        ensures SonyTimes(ps[j])
      {
        if j >= |f| {
          assert ps[j] == rest[j - |f|];
        } else if j > 0 {
          assert ps[j] == bits[j - 1];
        }
      }
    }
  }

  lemma HumaxPulsesTimes(d: int, w: int)
    ensures var ps := HumaxPulses(d, w);
      forall j :: 0 <= j < |ps| ==> HumaxTimes(ps[j])
  {
    var bits := HumaxBitPulses(d, 0, w);
    var ps := HumaxPulses(d, w);
    assert ps == [Pulse(HumaxStartOn, HumaxStartOff)] + bits + HumaxTail;
    forall j | 0 <= j < |ps|
      ensures HumaxTimes(ps[j])
    {
      if j == 0 {
      } else if j <= |bits| {
        assert ps[j] == bits[j - 1];
      } else {
        assert ps[j] == HumaxTail[j - 1 - |bits|];
      }
    }
  }

  /** The captured raw signals start with 11 (DenonCdr) or with 425 or 426 (the Apple remote). */
  lemma RawTemplateStarts()
    ensures WellFormedTemplates(RawTemplates)
    ensures forall i :: 0 <= i < |RawTemplates| ==> RawTemplates[i][0] in {11, 425, 426}
  {
    RawTemplatesReplayable();
    assert DenonCdr[0] == 11;
    assert ApplePlay[0] == 425 && AppleMenu[0] == 426 && AppleDown[0] == 426;
    assert AppleUp[0] == 425 && AppleLeft[0] == 425 && AppleRight[0] == 425;
  }

  /** No Sony duration is within the raw tolerance of a template's start, nor a Humax start pulse. */
  lemma SonyTimesSonyOnly(p: Pulse)
    requires SonyTimes(p)
    ensures WellFormedTemplates(RawTemplates) && SonyOnlyPulse(RawTemplates, p)
  {
    RawTemplateStarts();
  }

  /** No Humax duration is within the raw tolerance of a template's start, nor a Sony start pulse. */
  lemma HumaxTimesHumaxOnly(p: Pulse)
    requires HumaxTimes(p)
    ensures WellFormedTemplates(RawTemplates) && HumaxOnlyPulse(RawTemplates, p)
  {
    RawTemplateStarts();
  }

  // ------------------------------------------------------- end to end

  /** What the integration hands on for a detection read at `now`: stamped and named. */
  function Delivered(det: Detection, now: int): (c: IrCmd)
    ensures c.kind == det.kind && c.data == det.data && c.width == det.width && c.timeStamp == now
  {
    var cmd := IrCmd(det.kind, det.data, det.width, None, now);
    cmd.(name := KnownName(KnownCommands, cmd))
  }

  /**
   * What the integration, started at t0 with its own template and name
   * tables, delivers for one chunk of bytes read at `now`.
   */
  function ReceiveFromStart(bytes: seq<byte>, t0: int, now: int): seq<IrCmd>
  {
    RawTemplatesReplayable();
    Receive(RawTemplates, KnownCommands, RxInit(t0), bytes, now).delivered
  }

  /**
   * The same detection twice from start-up is delivered once: the first is
   * no repeat of the start-up `Null` command, the second repeats the first.
   */
  lemma TwiceDeliveredOnce(det: Detection, t0: int, now: int)
    requires det.kind != KindNull
    ensures ProcessCommands(KnownCommands, NullCmd(t0), [det, det], now).delivered == [Delivered(det, now)]
  {
    var first := Delivered(det, now);
    assert ProcessCommand(KnownCommands, NullCmd(t0), det, now) == ProcessOut(first, [first]);
    var second := ProcessCommand(KnownCommands, first, det, now);
    assert second.delivered == [];
    assert [det, det][1..] == [det] && [det][1..] == [];
    assert ProcessCommands(KnownCommands, second.prev, [], now).delivered == [];
    assert ProcessCommands(KnownCommands, first, [det], now).delivered == [];
    assert [first] + [] == [first];
  }

  /** A detection from start-up, alone in its chunk, is delivered. */
  lemma OnceDelivered(det: Detection, t0: int, now: int)
    requires det.kind != KindNull
    ensures ProcessCommands(KnownCommands, NullCmd(t0), [det], now).delivered == [Delivered(det, now)]
  {
    var first := Delivered(det, now);
    assert ProcessCommand(KnownCommands, NullCmd(t0), det, now) == ProcessOut(first, [first]);
    assert [det][1..] == [];
  }

  /** Every Sony pulse passes the raw matcher and the Humax decoder by. */
  lemma SonyPulsesSonyOnly(d: int, w: int)
    ensures WellFormedTemplates(RawTemplates)
    ensures var ps := SonyPulses(d, w);
      forall j :: 0 <= j < |ps| ==> SonyOnlyPulse(RawTemplates, ps[j])
  {
    RawTemplatesReplayable();
    var ps := SonyPulses(d, w);
    SonyFramesTimes(d, w, 0);
    forall j | 0 <= j < |ps|
      ensures SonyOnlyPulse(RawTemplates, ps[j])
    {
      SonyTimesSonyOnly(ps[j]);
    }
  }

  /** Every Humax pulse passes the raw matcher and the Sony decoder by. */
  lemma HumaxPulsesHumaxOnly(d: int, w: int)
    ensures WellFormedTemplates(RawTemplates)
    ensures var ps := HumaxPulses(d, w);
      forall j :: 0 <= j < |ps| ==> HumaxOnlyPulse(RawTemplates, ps[j])
  {
    RawTemplatesReplayable();
    var ps := HumaxPulses(d, w);
    HumaxPulsesTimes(d, w);
    forall j | 0 <= j < |ps|
      ensures HumaxOnlyPulse(RawTemplates, ps[j])
    {
      HumaxTimesHumaxOnly(ps[j]);
    }
  }

  /** From start-up, the bytes of a Sony command are detected twice and as nothing else. */
  lemma SonyDecodedFromStart(d: int, w: nat)
    requires w >= 1
    ensures WellFormedTemplates(RawTemplates)
    ensures var det := SonyDetection(d % Pow2(w), w);
      DecodeBytes(RawTemplates, ReceiverInit, EncodeSony(d, w)).detections == [det, det]
  {
    var ps := SonyPulses(d, w);
    SonyPulsesSendable(d, w);
    SonyPulsesSonyOnly(d, w);
    DecodeEncoded(RawTemplates, ReceiverInit, ps);
    PulseRunSonyOnly(RawTemplates, DecodersInit, ps);
    SonyPulsesDecode(SonyInit, d, w);
    LowBitsIsMod(d, w);
  }

  /** From start-up, the bytes of a Humax command are detected once and as nothing else. */
  lemma HumaxDecodedFromStart(d: int, w: nat)
    ensures WellFormedTemplates(RawTemplates)
    ensures var det := Detection(KindHumax, Bits(d % Pow2(w)), w);
      DecodeBytes(RawTemplates, ReceiverInit, EncodeHumax(d, w)).detections == [det]
  {
    var ps := HumaxPulses(d, w);
    HumaxPulsesSendable(d, w);
    HumaxPulsesHumaxOnly(d, w);
    DecodeEncoded(RawTemplates, ReceiverInit, ps);
    PulseRunHumaxOnly(RawTemplates, DecodersInit, ps);
    HumaxPulsesDecode(HumaxInit, d, w);
    LowBitsIsMod(d, w);
  }

  /**
   * `encodeSony(d, w)` read in one chunk from start-up delivers one
   * command: the low w bits of d as a w-bit Sony command. Its two
   * detections, on frames two and three, arrive together, and the second
   * is the repeat the filter drops.
   */
  lemma SonyReceivedOnce(d: int, w: nat, t0: int, now: int)
    requires w >= 1
    ensures ReceiveFromStart(EncodeSony(d, w), t0, now) == [Delivered(SonyDetection(d % Pow2(w), w), now)]
  {
    SonyDecodedFromStart(d, w);
    TwiceDeliveredOnce(SonyDetection(d % Pow2(w), w), t0, now);
  }

  /**
   * `encodeHumax(d, w)` read in one chunk from start-up delivers one
   * command: the low w bits of d as a w-bit Humax command.
   */
  lemma HumaxReceivedOnce(d: int, w: nat, t0: int, now: int)
    ensures ReceiveFromStart(EncodeHumax(d, w), t0, now)
      == [Delivered(Detection(KindHumax, Bits(d % Pow2(w)), w), now)]
  {
    HumaxDecodedFromStart(d, w);
    OnceDelivered(Detection(KindHumax, Bits(d % Pow2(w)), w), t0, now);
  }
}

=== FILE: ir_man.dfy ===
/**
 * The IrMan receiver loop: each iteration reads up to six bytes. A full
 * read becomes a command, named by its bytes in hex, and is queued unless
 * it repeats the previous one; a short read counts towards a watchdog that
 * flushes the serial input after more than five idle reads in a row.
 */
module IrMan {
  import opened Wrappers
  import opened Bits

  const WatchdogIdleCount := 5

  /** The repeat window of 1.5 s, in milliseconds. */
  const CmdRepeatFilterMillis := 1500

  /** The number of bytes one IR code takes. */
  const CodeBytes := 6

  /** A received code: its bytes as text and the time it was read, in milliseconds. */
  datatype IrManCmd = IrManCmd(data: string, timeStamp: int)

  /** `__eq__`: only the data is compared. */
  predicate Equal(a: IrManCmd, b: IrManCmd)
  {
    a.data == b.data
  }

  /** What `__hash__` is computed from. */
  function HashKey(c: IrManCmd): string
  {
    c.data
  }

  lemma HashConsistent(a: IrManCmd, b: IrManCmd)
    ensures Equal(a, b) <==> HashKey(a) == HashKey(b)
    ensures Equal(a, b) <==> a.(timeStamp := 0) == b.(timeStamp := 0)
  {
  }

  /** `a.repeatOf(b)`: equal data, and b strictly within the window on either side of a. */
  predicate RepeatOf(a: IrManCmd, b: IrManCmd)
  {
    && Equal(a, b)
    && a.timeStamp + CmdRepeatFilterMillis > b.timeStamp
    && a.timeStamp - CmdRepeatFilterMillis < b.timeStamp
  }

  /** Being a repeat depends on the time difference alone, in either order, and the window's edge is excluded. */
  lemma RepeatOfWindow(a: IrManCmd, b: IrManCmd)
    ensures RepeatOf(a, b) <==> a.data == b.data && -CmdRepeatFilterMillis < b.timeStamp - a.timeStamp < CmdRepeatFilterMillis
    ensures RepeatOf(a, b) <==> RepeatOf(b, a)
    ensures b.timeStamp - a.timeStamp == CmdRepeatFilterMillis ==> !RepeatOf(a, b)
  {
  }

  /** One hex digit, lower case, as Python's `x` format writes it. */
  function HexDigit(d: int): (r: char)
    requires 0 <= d < 16
    ensures r != ':'
  {
    if d < 10 then ('0' as int + d) as char else ('a' as int + d - 10) as char
  }

  /** `f"{c:x}"`: one digit below 16, two from 16 on, no padding. */
  function HexByte(b: byte): (r: string)
    ensures |r| == (if b < 16 then 1 else 2)
    ensures ':' !in r
  {
    if b < 16 then [HexDigit(b)] else [HexDigit(b / 16), HexDigit(b % 16)]
  }

  /** `":".join(...)` of the hex bytes. */
  function Format(bs: seq<byte>): (r: string)
    ensures |bs| > 0 ==> |r| > 0
    ensures |bs| <= 1 ==> ':' !in r
  {
    if |bs| == 0 then ""
    else if |bs| == 1 then HexByte(bs[0])
    else HexByte(bs[0]) + ":" + Format(bs[1..])
  }

  lemma HexDigitInjective(a: int, b: int)
    requires 0 <= a < 16 && 0 <= b < 16 && HexDigit(a) == HexDigit(b)
    ensures a == b
  {
  }

  lemma HexByteInjective(a: byte, b: byte)
    requires HexByte(a) == HexByte(b)
    ensures a == b
  {
    if a < 16 {
      HexDigitInjective(a, b);
    } else {
      assert HexByte(a)[0] == HexByte(b)[0] && HexByte(a)[1] == HexByte(b)[1];
      HexDigitInjective(a / 16, b / 16);
      HexDigitInjective(a % 16, b % 16);
    }
  }

  /** The index of the first colon in s, or |s| if there is none. */
  function FirstColon(s: string): (r: nat)
    ensures r <= |s|
  {
    if |s| == 0 then 0 else if s[0] == ':' then 0 else 1 + FirstColon(s[1..])
  }

  lemma {:induction false} FirstColonAfter(x: string, y: string)
    requires ':' !in x
    ensures FirstColon(x + ":" + y) == |x|
    decreases |x|
  {
    if |x| > 0 {
      assert (x + ":" + y)[1..] == x[1..] + ":" + y;
      assert x[0] in x;
      FirstColonAfter(x[1..], y);
    }
  }

  /** Text split at its first colon: the parts before it are equal, and so are the parts after. */
  lemma SplitAtColon(x: string, y: string, u: string, v: string)
    requires ':' !in x && ':' !in u
    requires x + ":" + y == u + ":" + v
    ensures x == u && y == v
  {
    var s := x + ":" + y;
    FirstColonAfter(x, y);
    FirstColonAfter(u, v);
    assert x == s[..|x|] == u;
    assert y == s[|x| + 1..] == v;
  }

  /** A formatted code holds a colon exactly when it has more than one byte. */
  lemma ColonInFormat(bs: seq<byte>)
    ensures ':' in Format(bs) <==> |bs| > 1
  {
    if |bs| > 1 {
      assert Format(bs)[|HexByte(bs[0])|] == ':';
    }
  }

  /** Different byte strings are written as different text. */
  lemma {:induction false} FormatInjective(a: seq<byte>, b: seq<byte>)
    requires Format(a) == Format(b)
    ensures a == b
    decreases |a|
  {
    ColonInFormat(a);
    ColonInFormat(b);
    if |a| == 1 {
      HexByteInjective(a[0], b[0]);
    } else if |a| > 1 {
      SplitAtColon(HexByte(a[0]), Format(a[1..]), HexByte(b[0]), Format(b[1..]));
      HexByteInjective(a[0], b[0]);
      FormatInjective(a[1..], b[1..]);
      assert a == [a[0]] + a[1..];
      assert b == [b[0]] + b[1..];
    }
  }

  /** Commands made from two reads are equal exactly when the same bytes were read. */
  lemma ReadEquality(a: seq<byte>, b: seq<byte>, ta: int, tb: int)
    ensures Equal(IrManCmd(Format(a), ta), IrManCmd(Format(b), tb)) <==> a == b
  {
    if Format(a) == Format(b) {
      FormatInjective(a, b);
    }
  }

  /** The loop's state between iterations: the last full code and the idle count. */
  datatype Loop = Loop(prevCmd: IrManCmd, idleCount: int)

  /** The state `run` enters its loop with, at time t0. */
  function Init(t0: int): Loop
  {
    Loop(IrManCmd("", t0), 0)
  }

  /** What one iteration did: the command queued, if any, and whether the input was flushed. */
  datatype StepOut = StepOut(loop: Loop, queued: Option<IrManCmd>, flushed: bool)

  /** One iteration of `run` on the bytes one read returned at time `now`. */
  function Step(s: Loop, resp: seq<byte>, now: int): (r: StepOut)
    // a full read replaces the previous command and leaves the idle count alone
    ensures |resp| == CodeBytes ==> r.loop == Loop(IrManCmd(Format(resp), now), s.idleCount) && !r.flushed
    ensures |resp| == CodeBytes ==> (r.queued.Some? <==> !RepeatOf(s.prevCmd, r.loop.prevCmd))
    ensures r.queued.Some? ==> r.queued.value == r.loop.prevCmd
    // a short read queues nothing and keeps the previous command
    ensures |resp| != CodeBytes ==> r.queued.None? && r.loop.prevCmd == s.prevCmd
    ensures |resp| != CodeBytes ==> (r.flushed <==> s.idleCount >= WatchdogIdleCount)
    ensures |resp| != CodeBytes ==> r.loop.idleCount == if r.flushed then 0 else s.idleCount + 1
  {
    if |resp| == CodeBytes then
      var cmd := IrManCmd(Format(resp), now);
      StepOut(Loop(cmd, s.idleCount), if !RepeatOf(s.prevCmd, cmd) then Some(cmd) else None, false)
    else
      var idleCount := s.idleCount + 1;
      if idleCount > WatchdogIdleCount then
        StepOut(Loop(s.prevCmd, 0), None, true)
      else
        StepOut(Loop(s.prevCmd, idleCount), None, false)
  }

  /** The idle count stays within 0..5 from one iteration to the next. */
  lemma StepKeepsIdleBound(s: Loop, resp: seq<byte>, now: int)
    requires 0 <= s.idleCount <= WatchdogIdleCount
    ensures 0 <= Step(s, resp, now).loop.idleCount <= WatchdogIdleCount
  {
  }

  /** The first code read after start-up is always queued: no code reads as empty text. */
  lemma FirstCodeQueued(t0: int, resp: seq<byte>, now: int)
    requires |resp| == CodeBytes
    ensures Step(Init(t0), resp, now).queued == Some(IrManCmd(Format(resp), now))
  {
  }

  /** One read: its bytes and the time it returned. */
  datatype Read = Read(bytes: seq<byte>, time: int)

  /** The loop over many reads: the final state, the commands queued in order, and how often the input was flushed. */
  datatype RunOut = RunOut(loop: Loop, queued: seq<IrManCmd>, flushes: nat)

  function Run(s: Loop, rx: seq<Read>): (r: RunOut)
    ensures |r.queued| <= |rx|
    decreases |rx|
  {
    if |rx| == 0 then RunOut(s, [], 0)
    else
      var first := Step(s, rx[0].bytes, rx[0].time);
      var rest := Run(first.loop, rx[1..]);
      RunOut(rest.loop, (if first.queued.Some? then [first.queued.value] else []) + rest.queued,
        (if first.flushed then 1 else 0) + rest.flushes)
  }

  lemma RunAfter(s: Loop, rx: seq<Read>, first: StepOut)
    requires |rx| > 0 && Step(s, rx[0].bytes, rx[0].time) == first
    ensures var rest := Run(first.loop, rx[1..]);
      Run(s, rx) == RunOut(rest.loop, (if first.queued.Some? then [first.queued.value] else []) + rest.queued,
        (if first.flushed then 1 else 0) + rest.flushes)
  {
  }

  /** Over any run the idle count never leaves 0..5. */
  lemma {:induction false} RunKeepsIdleBound(s: Loop, rx: seq<Read>)
    requires 0 <= s.idleCount <= WatchdogIdleCount
    ensures 0 <= Run(s, rx).loop.idleCount <= WatchdogIdleCount
    decreases |rx|
  {
    if |rx| > 0 {
      StepKeepsIdleBound(s, rx[0].bytes, rx[0].time);
      var rest := rx[1..];
      RunKeepsIdleBound(Step(s, rx[0].bytes, rx[0].time).loop, rest);
    }
  }

  predicate AllShort(rx: seq<Read>)
  {
    forall i :: 0 <= i < |rx| ==> |rx[i].bytes| != CodeBytes
  }

  /**
   * A stretch of k short reads, started with an idle count of c in 0..5,
   * queues nothing, flushes once for every sixth idle read counted from
   * zero, and leaves the count at (c + k) mod 6.
   */
  lemma {:induction false} IdleStretch(s: Loop, rx: seq<Read>)
    requires 0 <= s.idleCount <= WatchdogIdleCount && AllShort(rx)
    ensures var r := Run(s, rx);
      && r.queued == []
      && r.loop.prevCmd == s.prevCmd
      && r.flushes == (s.idleCount + |rx|) / (WatchdogIdleCount + 1)
      && r.loop.idleCount == (s.idleCount + |rx|) % (WatchdogIdleCount + 1)
    decreases |rx|
  {
    if |rx| > 0 {
      var first := Step(s, rx[0].bytes, rx[0].time);
      var rest := rx[1..];
      assert AllShort(rest) by {
        forall i | 0 <= i < |rest|
          ensures |rest[i].bytes| != CodeBytes
        {
          assert rest[i] == rx[i + 1];
        }
      }
      RunAfter(s, rx, first);
      IdleStretch(first.loop, rest);
      var c := s.idleCount;
      var k := |rx|;
      if c == WatchdogIdleCount {
        DivModUnique(c + k, 6, 1 + (k - 1) / 6, (k - 1) % 6);
      } else {
        assert first.loop.idleCount == c + 1;
      }
    }
  }

  /**
   * A button held down: the same code read again and again, each read
   * within the window of the one before, while the previous command already
   * holds that code, is never queued again.
   */
  lemma {:induction false} HeldButtonQueuedOnce(s: Loop, code: seq<byte>, times: seq<int>)
    requires |code| == CodeBytes && s.prevCmd.data == Format(code)
    requires |times| > 0 && -CmdRepeatFilterMillis < times[0] - s.prevCmd.timeStamp < CmdRepeatFilterMillis
    requires forall i :: 0 < i < |times| ==> -CmdRepeatFilterMillis < times[i] - times[i - 1] < CmdRepeatFilterMillis
    ensures Run(s, HeldReads(code, times)).queued == []
    decreases |times|
  {
    var rx := HeldReads(code, times);
    var first := Step(s, code, times[0]);
    assert rx[0] == Read(code, times[0]);
    RunAfter(s, rx, first);
    assert first.queued.None?;
    if |times| > 1 {
      var rest := times[1..];
      assert rx[1..] == HeldReads(code, rest);
      HeldButtonQueuedOnce(first.loop, code, rest);
    }
  }

  /** The reads of one code at the given times. */
  function HeldReads(code: seq<byte>, times: seq<int>): (r: seq<Read>)
    ensures |r| == |times|
    ensures forall i :: 0 <= i < |times| ==> r[i] == Read(code, times[i])
  {
    if |times| == 0 then [] else [Read(code, times[0])] + HeldReads(code, times[1..])
  }

  /** From start-up, a held button's code is queued exactly once. */
  lemma HeldButtonFromStart(t0: int, code: seq<byte>, times: seq<int>)
    requires |code| == CodeBytes && |times| > 0
    requires forall i :: 0 < i < |times| ==> -CmdRepeatFilterMillis < times[i] - times[i - 1] < CmdRepeatFilterMillis
    ensures Run(Init(t0), HeldReads(code, times)).queued == [IrManCmd(Format(code), times[0])]
  {
    var rx := HeldReads(code, times);
    var first := Step(Init(t0), code, times[0]);
    assert rx[0] == Read(code, times[0]);
    RunAfter(Init(t0), rx, first);
    if |times| > 1 {
      var rest := times[1..];
      assert rx[1..] == HeldReads(code, rest);
      HeldButtonQueuedOnce(first.loop, code, rest);
    } else {
      assert rx[1..] == [];
    }
  }
}

=== FILE: ir_receiver.dfy ===
/**
 * The receive path of the IR transceiver: bytes are demultiplexed into
 * durations, the durations drive the three decoders, and every detection
 * passes the repeat filter and name resolution of `processCommand`.
 *
 * The source interleaves these per byte; here the demultiplexer runs first
 * and the decoders consume its completed values in order. The two agree
 * because the demultiplexer never reads decoder state and the decoders
 * never read the repeat filter's state (`DecodeBytesStaged` shows the
 * first half).
 */
module IrReceiver {
  import opened Wrappers
  import opened Bits
  import opened IrTiming
  import opened IrCommand
  import opened PulseDemux
  import opened RawDecoder
  import opened SonyDecoder
  import opened HumaxDecoder

  /** The state of the three decoders. */
  datatype Decoders = Decoders(raw: RawState, sony: SonyState, humax: HumaxState)

  const DecodersInit := Decoders(RawInit, SonyInit, HumaxInit)

  datatype DecodeOut = DecodeOut(decoders: Decoders, detections: seq<Detection>)

  /** The detections of one kind, in order. */
  function OfKind(ds: seq<Detection>, kind: string): (r: seq<Detection>)
    ensures |r| <= |ds|
    ensures forall i :: 0 <= i < |r| ==> r[i].kind == kind
    decreases |ds|
  {
    if |ds| == 0 then []
    else (if ds[0].kind == kind then [ds[0]] else []) + OfKind(ds[1..], kind)
  }

  predicate AllOfKind(ds: seq<Detection>, kind: string)
  {
    forall i :: 0 <= i < |ds| ==> ds[i].kind == kind
  }

  predicate NoneOfKind(ds: seq<Detection>, kind: string)
  {
    forall i :: 0 <= i < |ds| ==> ds[i].kind != kind
  }

  /** Filtering keeps every detection of the kind... */
  lemma {:induction false} OfKindAll(ds: seq<Detection>, kind: string)
    requires AllOfKind(ds, kind)
    ensures OfKind(ds, kind) == ds
    decreases |ds|
  {
    if |ds| > 0 {
      var rest := ds[1..];
      assert AllOfKind(rest, kind) by {
        forall i | 0 <= i < |rest|
          ensures rest[i].kind == kind
        {
          assert rest[i] == ds[i + 1];
        }
      }
      OfKindAll(rest, kind);
      assert ds == [ds[0]] + rest;
    }
  }

  /** ...and drops every detection of another kind. */
  lemma {:induction false} OfKindNone(ds: seq<Detection>, kind: string)
    requires NoneOfKind(ds, kind)
    ensures OfKind(ds, kind) == []
    decreases |ds|
  {
    if |ds| > 0 {
      var rest := ds[1..];
      assert NoneOfKind(rest, kind) by {
        forall i | 0 <= i < |rest|
          ensures rest[i].kind != kind
        {
          assert rest[i] == ds[i + 1];
        }
      }
      OfKindNone(rest, kind);
    }
  }

  lemma {:induction false} OfKindAppend(a: seq<Detection>, b: seq<Detection>, kind: string)
    ensures OfKind(a + b, kind) == OfKind(a, kind) + OfKind(b, kind)
    decreases |a|
  {
    if |a| == 0 {
      assert a + b == b;
    } else {
      var ab := a + b;
      assert ab[0] == a[0];
      assert ab[1..] == a[1..] + b;
      OfKindAppend(a[1..], b, kind);
      var head := if a[0].kind == kind then [a[0]] else [];
      assert OfKind(ab, kind) == head + OfKind(ab[1..], kind);
      assert OfKind(a, kind) == head + OfKind(a[1..], kind);
      assert head + (OfKind(a[1..], kind) + OfKind(b, kind)) == (head + OfKind(a[1..], kind)) + OfKind(b, kind);
    }
  }

  /**
   * What a completed value sets off in `decodeRawData`: an on time goes to
   * the raw matcher; an on/off pair sends the off time to the raw matcher
   * and the pair to the Sony and then the Humax decoder.
   */
  function ValueStep(templates: seq<seq<int>>, d: Decoders, v: Assembled): DecodeOut
    requires WellFormedTemplates(templates)
  {
    match v
    case NoValue => DecodeOut(d, [])
    case OnValue(on) =>
      var raw := RawStep(templates, d.raw, on);
      DecodeOut(d.(raw := raw.state), RawDetections(raw.matched))
    case PairValue(on, off) =>
      var raw := RawStep(templates, d.raw, off);
      var sony := SonyStep(d.sony, on, off);
      var humax := HumaxStep(d.humax, on, off);
      DecodeOut(Decoders(raw.state, sony.state, humax.state), RawDetections(raw.matched) + sony.detections + humax.detections)
  }

  /** Raw, Sony and Humax detections in a row separate again by kind. */
  lemma SeparateKinds(rawDs: seq<Detection>, sonyDs: seq<Detection>, humaxDs: seq<Detection>)
    requires AllOfKind(rawDs, KindRaw) && AllOfKind(sonyDs, KindSony) && AllOfKind(humaxDs, KindHumax)
    ensures OfKind(rawDs + sonyDs + humaxDs, KindSony) == sonyDs
    ensures OfKind(rawDs + sonyDs + humaxDs, KindHumax) == humaxDs
  {
    SeparateKind(rawDs, sonyDs, humaxDs, KindSony);
    var before := rawDs + sonyDs;
    assert NoneOfKind(before, KindHumax) by {
      forall i | 0 <= i < |before|
        ensures before[i].kind != KindHumax
      {
        if i < |rawDs| {
          assert before[i] == rawDs[i];
        } else {
          assert before[i] == sonyDs[i - |rawDs|];
        }
      }
    }
    SeparateKind(before, humaxDs, [], KindHumax);
    assert before + humaxDs + [] == rawDs + sonyDs + humaxDs;
  }

  /** Filtering a row of three groups for the middle group's kind gives that group. */
  lemma SeparateKind(before: seq<Detection>, mid: seq<Detection>, after: seq<Detection>, kind: string)
    requires NoneOfKind(before, kind) && AllOfKind(mid, kind) && NoneOfKind(after, kind)
    ensures OfKind(before + mid + after, kind) == mid
  {
    OfKindAppend(before + mid, after, kind);
    OfKindAppend(before, mid, kind);
    OfKindNone(before, kind);
    OfKindAll(mid, kind);
    OfKindNone(after, kind);
    assert [] + mid + [] == mid;
  }

  /**
   * The raw matcher sees an on time when it completes and the off time of
   * a completed pair; the Sony and Humax decoders see each complete pair
   * once and nothing else, and the Sony and Humax detections of a value
   * are theirs.
   */
  lemma ValueStepKinds(templates: seq<seq<int>>, d: Decoders, v: Assembled)
    requires WellFormedTemplates(templates)
    ensures var r := ValueStep(templates, d, v);
      && r.decoders.raw == (match v
                            case NoValue => d.raw
                            case OnValue(on) => RawStep(templates, d.raw, on).state
                            case PairValue(_, off) => RawStep(templates, d.raw, off).state)
      && r.decoders.sony == (if v.PairValue? then SonyStep(d.sony, v.on, v.off).state else d.sony)
      && r.decoders.humax == (if v.PairValue? then HumaxStep(d.humax, v.on, v.off).state else d.humax)
      && OfKind(r.detections, KindSony) == (if v.PairValue? then SonyStep(d.sony, v.on, v.off).detections else [])
      && OfKind(r.detections, KindHumax) == (if v.PairValue? then HumaxStep(d.humax, v.on, v.off).detections else [])
  {
    match v
    case NoValue =>
    case OnValue(on) =>
      var raw := RawStep(templates, d.raw, on);
      SeparateKinds(RawDetections(raw.matched), [], []);
      assert RawDetections(raw.matched) + [] + [] == RawDetections(raw.matched);
    case PairValue(on, off) =>
      var raw := RawStep(templates, d.raw, off);
      SeparateKinds(RawDetections(raw.matched), SonyStep(d.sony, on, off).detections, HumaxStep(d.humax, on, off).detections);
  }

  /** The decoders run over a sequence of completed values. */
  function DecodeValues(templates: seq<seq<int>>, d: Decoders, vs: seq<Assembled>): DecodeOut
    requires WellFormedTemplates(templates)
    decreases |vs|
  {
    if |vs| == 0 then DecodeOut(d, [])
    else
      var first := ValueStep(templates, d, vs[0]);
      var rest := DecodeValues(templates, first.decoders, vs[1..]);
      DecodeOut(rest.decoders, first.detections + rest.detections)
  }

  lemma {:induction false} DecodeValuesAppend(templates: seq<seq<int>>, d: Decoders, a: seq<Assembled>, b: seq<Assembled>)
    requires WellFormedTemplates(templates)
    ensures var ra := DecodeValues(templates, d, a);
      var rb := DecodeValues(templates, ra.decoders, b);
      DecodeValues(templates, d, a + b) == DecodeOut(rb.decoders, ra.detections + rb.detections)
    decreases |a|
  {
    if |a| == 0 {
      assert a + b == b;
    } else {
      assert (a + b)[0] == a[0];
      assert (a + b)[1..] == a[1..] + b;
      var first := ValueStep(templates, d, a[0]);
      DecodeValuesAppend(templates, first.decoders, a[1..], b);
    }
  }

  /** The receiver: the demultiplexer and the decoders. */
  datatype Receiver = Receiver(demux: Demux, decoders: Decoders)

  const ReceiverInit := Receiver(DemuxInit, DecodersInit)

  datatype ReceiveOut = ReceiveOut(receiver: Receiver, detections: seq<Detection>)

  /** The receiver after a re-initialisation or a transmission: only the byte counter is reset. */
  function ReceiverReset(rc: Receiver): (r: Receiver)
    ensures r.demux.byteCount == 0 && r.decoders == rc.decoders
    ensures r.demux.prevByte == rc.demux.prevByte && r.demux.onTime == rc.demux.onTime
  {
    Receiver(DemuxReset(rc.demux), rc.decoders)
  }

  /** One byte of `decodeRawData`, demultiplexing and decoding together as the source does. */
  function ByteStep(templates: seq<seq<int>>, rc: Receiver, b: byte): ReceiveOut
    requires WellFormedTemplates(templates)
  {
    var dm := DemuxStep(rc.demux, b);
    var dv := ValueStep(templates, rc.decoders, dm.value);
    ReceiveOut(Receiver(dm.state, dv.decoders), dv.detections)
  }

  /** `decodeRawData` over a chunk of bytes. */
  function DecodeBytes(templates: seq<seq<int>>, rc: Receiver, bytes: seq<byte>): ReceiveOut
    requires WellFormedTemplates(templates)
    decreases |bytes|
  {
    if |bytes| == 0 then ReceiveOut(rc, [])
    else
      var first := ByteStep(templates, rc, bytes[0]);
      var rest := DecodeBytes(templates, first.receiver, bytes[1..]);
      ReceiveOut(rest.receiver, first.detections + rest.detections)
  }

  /**
   * Decoding a chunk byte by byte is demultiplexing the whole chunk and then
   * decoding the completed values in order.
   */
  lemma {:induction false} DecodeBytesStaged(templates: seq<seq<int>>, rc: Receiver, bytes: seq<byte>)
    requires WellFormedTemplates(templates)
    ensures var dm := DemuxRun(rc.demux, bytes);
      var dv := DecodeValues(templates, rc.decoders, dm.values);
      DecodeBytes(templates, rc, bytes) == ReceiveOut(Receiver(dm.state, dv.decoders), dv.detections)
    decreases |bytes|
  {
    if |bytes| > 0 {
      var dm1 := DemuxStep(rc.demux, bytes[0]);
      var first := ByteStep(templates, rc, bytes[0]);
      DecodeBytesStaged(templates, first.receiver, bytes[1..]);
      var dm := DemuxRun(rc.demux, bytes);
      assert dm.values[0] == dm1.value;
      assert dm.values[1..] == DemuxRun(dm1.state, bytes[1..]).values;
    }
  }

  predicate NonNegative(ps: seq<Pulse>)
  {
    forall i :: 0 <= i < |ps| ==> ps[i].on >= 0 && ps[i].off >= 0
  }

  /** The four values the demultiplexer completes for each pulse. */
  function PulseValues(ps: seq<Pulse>): (r: seq<Assembled>)
    requires NonNegative(ps)
    ensures |r| == 4 * |ps|
    decreases |ps|
  {
    if |ps| == 0 then []
    else [NoValue, OnValue(ps[0].on), NoValue, PairValue(ps[0].on, ps[0].off)] + PulseValues(ps[1..])
  }

  /** One received pulse: the raw matcher sees its on time, then all three decoders see the pair. */
  function PulseStep(templates: seq<seq<int>>, d: Decoders, p: Pulse): DecodeOut
    requires WellFormedTemplates(templates) && p.on >= 0 && p.off >= 0
  {
    var first := ValueStep(templates, d, OnValue(p.on));
    var second := ValueStep(templates, first.decoders, PairValue(p.on, p.off));
    DecodeOut(second.decoders, first.detections + second.detections)
  }

  /** The decoders run over a pulse train. */
  function PulseRun(templates: seq<seq<int>>, d: Decoders, ps: seq<Pulse>): DecodeOut
    requires WellFormedTemplates(templates) && NonNegative(ps)
    decreases |ps|
  {
    if |ps| == 0 then DecodeOut(d, [])
    else
      var first := PulseStep(templates, d, ps[0]);
      var rest := PulseRun(templates, first.decoders, ps[1..]);
      DecodeOut(rest.decoders, first.detections + rest.detections)
  }

  /** Decoding the values of a pulse train is running the decoders pulse by pulse. */
  lemma {:induction false} DecodePulseValues(templates: seq<seq<int>>, d: Decoders, ps: seq<Pulse>)
    requires WellFormedTemplates(templates) && NonNegative(ps)
    ensures DecodeValues(templates, d, PulseValues(ps)) == PulseRun(templates, d, ps)
    decreases |ps|
  {
    if |ps| > 0 {
      var p := ps[0];
      var quad := [NoValue, OnValue(p.on), NoValue, PairValue(p.on, p.off)];
      DecodeValuesAppend(templates, d, quad, PulseValues(ps[1..]));
      var v1 := ValueStep(templates, d, OnValue(p.on));
      var v3 := ValueStep(templates, v1.decoders, PairValue(p.on, p.off));
      assert DecodeValues(templates, v3.decoders, []) == DecodeOut(v3.decoders, []);
      assert DecodeValues(templates, v1.decoders, quad[2..]) == DecodeOut(v3.decoders, v3.detections) by {
        assert quad[2..][1..] == quad[3..];
        assert quad[3..][1..] == [];
      }
      assert DecodeValues(templates, d, quad) == DecodeOut(v3.decoders, v1.detections + v3.detections) by {
        assert quad[1..] == [OnValue(p.on)] + quad[2..];
        assert quad[1..][1..] == quad[2..];
      }
      DecodePulseValues(templates, v3.decoders, ps[1..]);
    }
  }

  /** One pulse moves the Sony and Humax decoders exactly as they move on their own. */
  lemma PulseStepKinds(templates: seq<seq<int>>, d: Decoders, p: Pulse)
    requires WellFormedTemplates(templates) && p.on >= 0 && p.off >= 0
    ensures var r := PulseStep(templates, d, p);
      && r.decoders.sony == SonyStep(d.sony, p.on, p.off).state
      && r.decoders.humax == HumaxStep(d.humax, p.on, p.off).state
      && OfKind(r.detections, KindSony) == SonyStep(d.sony, p.on, p.off).detections
      && OfKind(r.detections, KindHumax) == HumaxStep(d.humax, p.on, p.off).detections
  {
    var v1 := ValueStep(templates, d, OnValue(p.on));
    var v3 := ValueStep(templates, v1.decoders, PairValue(p.on, p.off));
    ValueStepKinds(templates, d, OnValue(p.on));
    ValueStepKinds(templates, v1.decoders, PairValue(p.on, p.off));
    OfKindAppend(v1.detections, v3.detections, KindSony);
    OfKindAppend(v1.detections, v3.detections, KindHumax);
  }

  /** The inductive step of `PulseRunKinds`, with the tail's result given. */
  lemma PulseRunKindsStep(templates: seq<seq<int>>, d: Decoders, ps: seq<Pulse>, tail: seq<Pulse>, d1: Decoders)
    requires WellFormedTemplates(templates) && NonNegative(ps) && |ps| > 0 && tail == ps[1..]
    requires d1 == PulseStep(templates, d, ps[0]).decoders
    requires var rest := PulseRun(templates, d1, tail);
      && rest.decoders.sony == SonyRun(d1.sony, tail).state
      && rest.decoders.humax == HumaxRun(d1.humax, tail).state
      && OfKind(rest.detections, KindSony) == SonyRun(d1.sony, tail).detections
      && OfKind(rest.detections, KindHumax) == HumaxRun(d1.humax, tail).detections
    ensures var r := PulseRun(templates, d, ps);
      && r.decoders.sony == SonyRun(d.sony, ps).state
      && r.decoders.humax == HumaxRun(d.humax, ps).state
      && OfKind(r.detections, KindSony) == SonyRun(d.sony, ps).detections
      && OfKind(r.detections, KindHumax) == HumaxRun(d.humax, ps).detections
  {
    var first := PulseStep(templates, d, ps[0]);
    PulseStepKinds(templates, d, ps[0]);
    var rest := PulseRun(templates, d1, tail);
    OfKindAppend(first.detections, rest.detections, KindSony);
    OfKindAppend(first.detections, rest.detections, KindHumax);
  }

  /**
   * Inside a pulse run the Sony and Humax decoders behave as they do on
   * their own: the same final states and the same detections, in order.
   */
  lemma {:induction false} PulseRunKinds(templates: seq<seq<int>>, d: Decoders, ps: seq<Pulse>)
    requires WellFormedTemplates(templates) && NonNegative(ps)
    ensures var r := PulseRun(templates, d, ps);
      && r.decoders.sony == SonyRun(d.sony, ps).state
      && r.decoders.humax == HumaxRun(d.humax, ps).state
      && OfKind(r.detections, KindSony) == SonyRun(d.sony, ps).detections
      && OfKind(r.detections, KindHumax) == HumaxRun(d.humax, ps).detections
    decreases |ps|
  {
    if |ps| > 0 {
      var d1 := PulseStep(templates, d, ps[0]).decoders;
      var tail := ps[1..];
      PulseRunKinds(templates, d1, tail);
      PulseRunKindsStep(templates, d, ps, tail, d1);
    }
  }

  datatype ProcessOut = ProcessOut(prev: IrCmd, delivered: seq<IrCmd>)

  /**
   * `processCommand`: the detection becomes a command stamped `now`. Unless
   * it repeats the previous command it is delivered, named after the first
   * equal known command. Either way it becomes the previous command.
   */
  function ProcessCommand(known: seq<IrCmd>, prev: IrCmd, det: Detection, now: int): (r: ProcessOut)
    ensures var cmd := IrCmd(det.kind, det.data, det.width, None, now);
      && |r.delivered| <= 1
      && (|r.delivered| == 1 <==> !RepeatOf(prev, cmd))
      && (|r.delivered| == 1 ==> r.prev == r.delivered[0])
      && (|r.delivered| == 0 ==> r.prev == cmd)
      && r.prev.(name := None) == cmd
  {
    var cmd := IrCmd(det.kind, det.data, det.width, None, now);
    if !RepeatOf(prev, cmd) then
      var named := cmd.(name := KnownName(known, cmd));
      ProcessOut(named, [named])
    else
      ProcessOut(cmd, [])
  }

  /**
   * A delivered command carries the name of the first equal known command,
   * and no name when no known command is equal.
   */
  lemma DeliveredName(known: seq<IrCmd>, prev: IrCmd, det: Detection, now: int)
    requires !RepeatOf(prev, IrCmd(det.kind, det.data, det.width, None, now))
    ensures var cmd := IrCmd(det.kind, det.data, det.width, None, now);
      var name := ProcessCommand(known, prev, det, now).delivered[0].name;
      && (forall i :: (0 <= i < |known| && SameCommand(known[i], cmd)
                       && (forall j :: 0 <= j < i ==> !SameCommand(known[j], cmd))) ==> name == known[i].name)
      && ((forall j :: 0 <= j < |known| ==> !SameCommand(known[j], cmd)) ==> name == None)
  {
    var cmd := IrCmd(det.kind, det.data, det.width, None, now);
    var m := FirstMatch(known, cmd);
    forall i | 0 <= i < |known| && SameCommand(known[i], cmd) && (forall j :: 0 <= j < i ==> !SameCommand(known[j], cmd))
      ensures m == Some(i)
    {
    }
  }

  /** `processCommand` over the detections of one chunk, all stamped `now`. */
  function ProcessCommands(known: seq<IrCmd>, prev: IrCmd, dets: seq<Detection>, now: int): ProcessOut
    decreases |dets|
  {
    if |dets| == 0 then ProcessOut(prev, [])
    else
      var first := ProcessCommand(known, prev, dets[0], now);
      var rest := ProcessCommands(known, first.prev, dets[1..], now);
      ProcessOut(rest.prev, first.delivered + rest.delivered)
  }

  /**
   * The same detection twice in one chunk is delivered at most once, and
   * exactly once when the first is not a repeat of the previous command.
   */
  lemma RepeatedDetectionDeliveredOnce(known: seq<IrCmd>, prev: IrCmd, det: Detection, now: int)
    ensures var r := ProcessCommands(known, prev, [det, det], now);
      var cmd := IrCmd(det.kind, det.data, det.width, None, now);
      |r.delivered| == (if RepeatOf(prev, cmd) then 0 else 1)
  {
    var cmd := IrCmd(det.kind, det.data, det.width, None, now);
    var first := ProcessCommand(known, prev, det, now);
    assert SameCommand(first.prev, cmd) && first.prev.timeStamp == now;
    var second := ProcessCommand(known, first.prev, det, now);
    assert |second.delivered| == 0;
    assert [det, det][1..] == [det];
    assert ProcessCommands(known, second.prev, [], now).delivered == [];
    assert ProcessCommands(known, first.prev, [det], now).delivered == [];
  }

  /** The receiver with its repeat filter: what the integration keeps between chunks. */
  datatype RxState = RxState(receiver: Receiver, prev: IrCmd)

  function RxInit(t0: int): RxState
  {
    RxState(ReceiverInit, NullCmd(t0))
  }

  datatype RxOut = RxOut(state: RxState, delivered: seq<IrCmd>)

  /** One chunk read from the transceiver at time `now`: decoded, then filtered and named. */
  function Receive(templates: seq<seq<int>>, known: seq<IrCmd>, st: RxState, bytes: seq<byte>, now: int): (r: RxOut)
    requires WellFormedTemplates(templates)
    ensures |r.delivered| <= |DecodeBytes(templates, st.receiver, bytes).detections|
  {
    var dec := DecodeBytes(templates, st.receiver, bytes);
    var pc := ProcessCommands(known, st.prev, dec.detections, now);
    ProcessCommandsAtMost(known, st.prev, dec.detections, now);
    RxOut(RxState(dec.receiver, pc.prev), pc.delivered)
  }

  /** Every detection is delivered at most once. */
  lemma {:induction false} ProcessCommandsAtMost(known: seq<IrCmd>, prev: IrCmd, dets: seq<Detection>, now: int)
    ensures |ProcessCommands(known, prev, dets, now).delivered| <= |dets|
    decreases |dets|
  {
    if |dets| > 0 {
      var first := ProcessCommand(known, prev, dets[0], now);
      ProcessCommandsAtMost(known, first.prev, dets[1..], now);
    }
  }
}

=== FILE: ir_round_trip.dfy ===
/**
 * Encoder against receiver: the bytes the encoder produces for a Sony or
 * Humax command, fed back through the demultiplexer and the decoders, give
 * back the command's low `width` bits.
 */
module IrRoundTrip {
  import opened Wrappers
  import opened Bits
  import opened IrTiming
  import opened IrCommand
  import opened PulseDemux
  import opened RawDecoder
  import opened SonyDecoder
  import opened HumaxDecoder
  import opened IrEncoder
  import opened IrReceiver

  /**
   * A pulse whose four bytes cannot trigger the double-0xFF resync: the
   * high byte of its on time is not 0xFF, and a 0xFF low on byte is not
   * followed by a 0xFF high off byte.
   */
  predicate Aligned(p: Pulse)
  {
    p.on < 0xFF00 && (p.on % 256 != 0xFF || p.off < 0xFF00)
  }

  predicate AllAligned(ps: seq<Pulse>)
  {
    forall i :: 0 <= i < |ps| ==> Aligned(ps[i])
  }

  lemma InRangeNonNegative(ps: seq<Pulse>)
    requires AllInRange(ps)
    ensures NonNegative(ps)
  {
    forall i | 0 <= i < |ps|
      ensures ps[i].on >= 0 && ps[i].off >= 0
    {
      assert PulseInRange(ps[i]);
    }
  }

  /** The four bytes of one pulse demultiplex back to it. */
  lemma DemuxPulse(m: Demux, p: Pulse)
    requires m.byteCount == 0 && PulseInRange(p) && Aligned(p)
    ensures var r := DemuxRun(m, EncodeRawData([], p.on, p.off));
      && r.values == [NoValue, OnValue(p.on), NoValue, PairValue(p.on, p.off)]
      && r.state.byteCount == 0
  {
    var bytes := EncodeRawData([], p.on, p.off);
    assert bytes == [p.on / 256, p.on % 256, p.off / 256, p.off % 256];
    DemuxQuad(m, p.on / 256, p.on % 256, p.off / 256, p.off % 256);
  }

  /**
   * After a reset, wherever the counter stood before, the four bytes of a
   * pulse demultiplex back to it: the reset realigns the byte groups.
   */
  lemma ResetRealigns(m: Demux, p: Pulse)
    requires PulseInRange(p) && Aligned(p)
    ensures var r := DemuxRun(DemuxReset(m), EncodeRawData([], p.on, p.off));
      && r.values == [NoValue, OnValue(p.on), NoValue, PairValue(p.on, p.off)]
      && r.state.byteCount == 0
  {
    DemuxPulse(DemuxReset(m), p);
  }

  /** An aligned pulse train, encoded, demultiplexes to exactly its on times and pairs. */
  lemma {:induction false} DemuxEncoded(m: Demux, ps: seq<Pulse>)
    requires m.byteCount == 0 && AllInRange(ps) && AllAligned(ps)
    ensures NonNegative(ps)
    ensures var r := DemuxRun(m, EncodePulses(ps));
      r.values == PulseValues(ps) && r.state.byteCount == 0
    decreases |ps|
  {
    InRangeNonNegative(ps);
    if |ps| > 0 {
      var head := EncodeRawData([], ps[0].on, ps[0].off);
      assert PulseInRange(ps[0]) && Aligned(ps[0]);
      assert EncodePulses(ps) == head + EncodePulses(ps[1..]);
      DemuxRunAppend(m, head, EncodePulses(ps[1..]));
      DemuxPulse(m, ps[0]);
      var m1 := DemuxRun(m, head).state;
      assert AllInRange(ps[1..]) && AllAligned(ps[1..]) by {
        assert forall i :: 0 <= i < |ps| - 1 ==> ps[1..][i] == ps[i + 1];
      }
      DemuxEncoded(m1, ps[1..]);
    }
  }

  /**
   * Feeding the encoded bytes of an aligned pulse train to a receiver that
   * is between pulses runs its decoders over exactly that train.
   */
  lemma DecodeEncoded(templates: seq<seq<int>>, rc: Receiver, ps: seq<Pulse>)
    requires WellFormedTemplates(templates)
    requires rc.demux.byteCount == 0 && AllInRange(ps) && AllAligned(ps)
    ensures NonNegative(ps)
    ensures var r := DecodeBytes(templates, rc, EncodePulses(ps));
      var pr := PulseRun(templates, rc.decoders, ps);
      && r.receiver.decoders == pr.decoders
      && r.detections == pr.detections
      && r.receiver.demux.byteCount == 0
  {
    DemuxEncoded(rc.demux, ps);
    DecodeBytesStaged(templates, rc, EncodePulses(ps));
    DecodePulseValues(templates, rc.decoders, ps);
  }

  // ---------------------------------------------------------------- Sony

  /** A Sony decoder inside a frame of d, having taken its first k bits. */
  predicate SonyArmed(s: SonyState, d: int, k: nat)
  {
    !s.error && s.data == LowBits(d, k) && s.bitCount == k
  }

  /**
   * How a frame of d with w bits ends: it is remembered as the previous
   * frame, passed on when it repeats the frame remembered before it
   * (`prevData`, `prevBitCount`), and the decoder waits for a start pulse.
   */
  predicate SonyFrameDone(prevData: nat, prevBitCount: nat, r: SonyOut, d: int, w: nat)
  {
    && r.state.error
    && r.state.prevData == LowBits(d, w) && r.state.prevBitCount == w
    && r.detections == (if prevData == LowBits(d, w) && prevBitCount == w
                        then [SonyDetection(LowBits(d, w), w)] else [])
  }

  /** One bit pulse of a frame of d adds bit k; the last one ends the frame. */
  lemma SonyBitStep(s: SonyState, d: int, k: nat, w: nat, gap: int)
    requires SonyArmed(s, d, k) && k < w && gap >= SonyMinEndOff
    ensures var p := SonyBitPulse(d, k, w, gap);
      var r := SonyStep(s, p.on, p.off);
      && r.state.data == LowBits(d, k + 1) && r.state.bitCount == k + 1
      && (k + 1 < w ==> SonyArmed(r.state, d, k + 1) && r.detections == []
                        && r.state.prevData == s.prevData && r.state.prevBitCount == s.prevBitCount)
      && (k + 1 == w ==> SonyFrameDone(s.prevData, s.prevBitCount, r, d, w))
  {
    LowBitsOr(d, k);
  }

  /** The inductive step of `SonyBitsRun`, with the result from bit q = k + 1 on given. */
  lemma SonyBitsRunStep(s: SonyState, d: int, k: nat, q: nat, w: nat, gap: int, first: SonyOut)
    requires SonyArmed(s, d, k) && q == k + 1 && q < w && gap >= SonyMinEndOff
    requires var p := SonyBitPulse(d, k, w, gap); first == SonyStep(s, p.on, p.off)
    requires first.detections == []
    requires SonyFrameDone(s.prevData, s.prevBitCount, SonyRun(first.state, SonyBitPulses(d, q, w, gap)), d, w)
    ensures SonyFrameDone(s.prevData, s.prevBitCount, SonyRun(s, SonyBitPulses(d, k, w, gap)), d, w)
  {
    SonyBitPulsesTail(d, k, w, gap);
    SonyRunAfter(s, SonyBitPulses(d, k, w, gap), first);
  }

  /** Dropping the first bit pulse leaves the pulses from the next bit on. */
  lemma SonyBitPulsesTail(d: int, k: nat, w: int, gap: int)
    requires k < w
    ensures SonyBitPulses(d, k, w, gap)[1..] == SonyBitPulses(d, k + 1, w, gap)
  {
  }

  /** The last bit pulse of a frame. */
  lemma SonyBitsRunLast(s: SonyState, d: int, k: nat, w: nat, gap: int)
    requires SonyArmed(s, d, k) && k + 1 == w && gap >= SonyMinEndOff
    ensures SonyFrameDone(s.prevData, s.prevBitCount, SonyRun(s, SonyBitPulses(d, k, w, gap)), d, w)
  {
    var p := SonyBitPulse(d, k, w, gap);
    SonyBitStep(s, d, k, w, gap);
    var ps := SonyBitPulses(d, k, w, gap);
    assert ps == [p];
    assert ps[1..] == [];
    SonyRunAfter(s, ps, SonyStep(s, p.on, p.off));
  }

  /** The bit pulses from bit k on complete the frame. */
  lemma {:induction false} SonyBitsRun(s: SonyState, d: int, k: nat, w: nat, gap: int)
    requires SonyArmed(s, d, k) && k < w && gap >= SonyMinEndOff
    ensures SonyFrameDone(s.prevData, s.prevBitCount, SonyRun(s, SonyBitPulses(d, k, w, gap)), d, w)
    decreases w - k
  {
    if k + 1 == w {
      SonyBitsRunLast(s, d, k, w, gap);
    } else {
      var q := k + 1;
      var p := SonyBitPulse(d, k, w, gap);
      var first := SonyStep(s, p.on, p.off);
      SonyBitStep(s, d, k, w, gap);
      SonyBitsRun(first.state, d, q, w, gap);
      SonyBitsRunStep(s, d, k, q, w, gap, first);
    }
  }

  /**
   * A whole frame, sent while the decoder waits for a start pulse, is
   * decoded and compared with the frame remembered before it.
   */
  lemma SonyFrameRun(s: SonyState, d: int, w: nat, gap: int)
    requires s.error && w >= 1 && gap >= SonyMinEndOff
    ensures SonyFrameDone(s.prevData, s.prevBitCount, SonyRun(s, SonyFrame(d, w, gap)), d, w)
  {
    var start := SonyStep(s, SonyStart, SonyOneT);
    assert IsSonyStart(SonyStart, SonyOneT);
    assert SonyArmed(start.state, d, 0);
    var f := SonyFrame(d, w, gap);
    assert f[0] == Pulse(SonyStart, SonyOneT);
    assert f[1..] == SonyBitPulses(d, 0, w, gap);
    SonyRunAfter(s, f, start);
    SonyBitsRun(start.state, d, 0, w, gap);
  }

  /**
   * The three frames of a Sony command, sent to a decoder that waits for a
   * start pulse and does not remember a frame of the same width, pass the
   * command on twice: on the second and on the third frame.
   */
  lemma SonyPulsesDecode(s: SonyState, d: int, w: nat)
    requires s.error && s.prevBitCount != w && w >= 1
    ensures SonyRun(s, SonyPulses(d, w)).detections
      == [SonyDetection(LowBits(d, w), w), SonyDetection(LowBits(d, w), w)]
  {
    var g, e := SonyFrame(d, w, SonyFrameGap), SonyFrame(d, w, EndOfBurst);
    var det := SonyDetection(LowBits(d, w), w);
    SonyPulsesFrames(d, w);
    var r1 := SonyRun(s, g);
    SonyFrameRun(s, d, w, SonyFrameGap);
    assert r1.detections == [];
    var r2 := SonyRun(r1.state, g);
    SonyFrameRun(r1.state, d, w, SonyFrameGap);
    assert r2.detections == [det];
    var r3 := SonyRun(r2.state, e);
    SonyFrameRun(r2.state, d, w, EndOfBurst);
    assert r3.detections == [det];
    SonyRunAppend(s, g, g);
    assert SonyRun(s, g + g) == SonyOut(r2.state, [] + [det]);
    SonyRunAppend(s, g + g, e);
    assert [] + [det] + [det] == [det, det];
  }

  /** Every Sony pulse is a start, 1T or 2T on time, none of them near 0xFF. */
  lemma {:induction false} SonyFramesAligned(d: int, w: int, i: nat)
    ensures var ps := SonyFrames(d, w, i);
      forall j :: 0 <= j < |ps| ==> ps[j].on in {SonyStart, SonyOneT, SonyTwoT}
    decreases SonyRepeatFrames - i
  {
    if i < SonyRepeatFrames {
      var f := SonyFrame(d, w, if i == SonyRepeatFrames - 1 then EndOfBurst else SonyFrameGap);
      SonyFramesAligned(d, w, i + 1);
      var rest := SonyFrames(d, w, i + 1);
      var ps := SonyFrames(d, w, i);
      assert ps == f + rest;
      forall j | 0 <= j < |ps|
        ensures ps[j].on in {SonyStart, SonyOneT, SonyTwoT}
      {
        if j >= |f| {
          assert ps[j] == rest[j - |f|];
        } else if j > 0 {
          assert ps[j] == f[j];
        }
      }
    }
  }

  /** The Sony pulses fit 16 bits and never trigger the resync. */
  lemma SonyPulsesSendable(d: int, w: int)
    ensures AllInRange(SonyPulses(d, w)) && AllAligned(SonyPulses(d, w))
  {
    var ps := SonyPulses(d, w);
    SonyPulsesInRange(d, w);
    SonyFramesAligned(d, w, 0);
    forall i | 0 <= i < |ps|
      ensures Aligned(ps[i])
    {
      assert ps[i].on in {SonyStart, SonyOneT, SonyTwoT};
    }
  }

  /**
   * The Sony round trip: `encodeSony(d, w)` fed to a receiver that is
   * between pulses, with a Sony decoder waiting for a start pulse and not
   * remembering a frame of w bits (as after start-up), yields the low w
   * bits of d as a w-bit Sony command, twice.
   */
  lemma SonyRoundTrip(templates: seq<seq<int>>, rc: Receiver, d: int, w: nat)
    requires WellFormedTemplates(templates) && w >= 1
    requires rc.demux.byteCount == 0 && rc.decoders.sony.error && rc.decoders.sony.prevBitCount != w
    ensures var dets := DecodeBytes(templates, rc, EncodeSony(d, w)).detections;
      OfKind(dets, KindSony) == [SonyDetection(d % Pow2(w), w), SonyDetection(d % Pow2(w), w)]
  {
    var ps := SonyPulses(d, w);
    SonyPulsesSendable(d, w);
    DecodeEncoded(templates, rc, ps);
    PulseRunKinds(templates, rc.decoders, ps);
    SonyPulsesDecode(rc.decoders.sony, d, w);
    LowBitsIsMod(d, w);
  }

  // --------------------------------------------------------------- Humax

  /** A Humax decoder receiving the data of d, having taken its first k bits. */
  predicate HumaxArmed(s: HumaxState, d: int, k: nat)
  {
    s.state == 1 && s.data == LowBits(d, k) && s.bitCount == k
  }

  lemma HumaxBitStep(s: HumaxState, d: int, k: nat)
    requires HumaxArmed(s, d, k)
    ensures var p := HumaxBitPulse(d, k);
      HumaxStep(s, p.on, p.off) == HumaxOut(HumaxState(1, LowBits(d, k + 1), k + 1), [])
  {
    LowBitsOr(d, k);
  }

  lemma HumaxBitsRunStep(s: HumaxState, d: int, k: nat, q: nat, w: nat)
    requires HumaxArmed(s, d, k) && q == k + 1 && q <= w
    requires HumaxRun(HumaxState(1, LowBits(d, q), q), HumaxBitPulses(d, q, w)) == HumaxOut(HumaxState(1, LowBits(d, w), w), [])
    ensures HumaxRun(s, HumaxBitPulses(d, k, w)) == HumaxOut(HumaxState(1, LowBits(d, w), w), [])
  {
    var p := HumaxBitPulse(d, k);
    HumaxBitStep(s, d, k);
    var ps := HumaxBitPulses(d, k, w);
    assert ps == [p] + HumaxBitPulses(d, q, w);
    assert ps[1..] == HumaxBitPulses(d, q, w);
    HumaxRunAfter(s, ps, HumaxStep(s, p.on, p.off));
  }

  /** The data pulses from bit k on gather the remaining bits, least significant first. */
  lemma {:induction false} HumaxBitsRun(s: HumaxState, d: int, k: nat, w: nat)
    requires HumaxArmed(s, d, k) && k <= w
    ensures HumaxRun(s, HumaxBitPulses(d, k, w)) == HumaxOut(HumaxState(1, LowBits(d, w), w), [])
    decreases w - k
  {
    if k == w {
      assert HumaxBitPulses(d, k, w) == [];
    } else {
      var q := k + 1;
      HumaxBitsRun(HumaxState(1, LowBits(d, q), q), d, q, w);
      HumaxBitsRunStep(s, d, k, q, w);
    }
  }

  /** The tail after the data bits passes the gathered command on and returns to idle. */
  lemma HumaxTailRun(data: nat, bitCount: nat)
    ensures HumaxRun(HumaxState(1, data, bitCount), HumaxTail)
      == HumaxOut(HumaxState(0, data, bitCount), [Detection(KindHumax, Bits(data), bitCount)])
  {
    var s0 := HumaxState(1, data, bitCount);
    var r1 := HumaxStep(s0, HumaxOneT, HumaxDataEndOff);
    assert r1 == HumaxOut(HumaxState(2, data, bitCount), []);
    var r2 := HumaxStep(r1.state, HumaxStartOn, HumaxTailOff);
    assert r2 == HumaxOut(HumaxState(3, data, bitCount), []);
    var r3 := HumaxStep(r2.state, HumaxOneT, EndOfBurst);
    assert r3 == HumaxOut(HumaxState(0, data, bitCount), [Detection(KindHumax, Bits(data), bitCount)]);
    var t := HumaxTail;
    assert HumaxRun(r3.state, []) == HumaxOut(r3.state, []);
    assert t[2..][1..] == [];
    HumaxRunAfter(r2.state, t[2..], r3);
    assert t[1..][1..] == t[2..];
    HumaxRunAfter(r1.state, t[1..], r2);
    HumaxRunAfter(s0, t, r1);
  }

  /** A Humax command sent to an idle decoder is passed on once, with the low w bits of d. */
  lemma HumaxPulsesDecode(s: HumaxState, d: int, w: nat)
    requires s.state == 0
    ensures HumaxRun(s, HumaxPulses(d, w)).detections == [Detection(KindHumax, Bits(LowBits(d, w)), w)]
  {
    var start := [Pulse(HumaxStartOn, HumaxStartOff)];
    var bits := HumaxBitPulses(d, 0, w);
    assert HumaxPulses(d, w) == start + bits + HumaxTail;
    var first := HumaxStep(s, HumaxStartOn, HumaxStartOff);
    assert IsHumaxStart(HumaxStartOn, HumaxStartOff);
    assert first == HumaxOut(HumaxState(1, 0, 0), []);
    assert HumaxRun(s, start) == first by {
      assert start[1..] == [];
      HumaxRunAfter(s, start, first);
    }
    HumaxBitsRun(first.state, d, 0, w);
    HumaxTailRun(LowBits(d, w), w);
    HumaxRunAppend(s, start, bits);
    HumaxRunAppend(s, start + bits, HumaxTail);
  }

  lemma HumaxPulsesAligned(d: int, w: int)
    ensures var ps := HumaxPulses(d, w);
      forall j :: 0 <= j < |ps| ==> ps[j].on in {HumaxStartOn, HumaxOneT}
  {
    var bits := HumaxBitPulses(d, 0, w);
    var ps := HumaxPulses(d, w);
    assert ps == [Pulse(HumaxStartOn, HumaxStartOff)] + bits + HumaxTail;
    forall j | 0 <= j < |ps|
      ensures ps[j].on in {HumaxStartOn, HumaxOneT}
    {
      if j == 0 {
      } else if j <= |bits| {
        assert ps[j] == bits[j - 1];
      } else {
        assert ps[j] == HumaxTail[j - 1 - |bits|];
      }
    }
  }

  /** The Humax pulses fit 16 bits and never trigger the resync. */
  lemma HumaxPulsesSendable(d: int, w: int)
    ensures AllInRange(HumaxPulses(d, w)) && AllAligned(HumaxPulses(d, w))
  {
    var ps := HumaxPulses(d, w);
    HumaxPulsesInRange(d, w);
    HumaxPulsesAligned(d, w);
    forall i | 0 <= i < |ps|
      ensures Aligned(ps[i])
    {
      assert ps[i].on in {HumaxStartOn, HumaxOneT};
    }
  }

  /**
   * The Humax round trip: `encodeHumax(d, w)` fed to a receiver that is
   * between pulses, with an idle Humax decoder, yields the low w bits of d
   * as a w-bit Humax command, once.
   */
  lemma HumaxRoundTrip(templates: seq<seq<int>>, rc: Receiver, d: int, w: nat)
    requires WellFormedTemplates(templates)
    requires rc.demux.byteCount == 0 && rc.decoders.humax.state == 0
    ensures var dets := DecodeBytes(templates, rc, EncodeHumax(d, w)).detections;
      OfKind(dets, KindHumax) == [Detection(KindHumax, Bits(d % Pow2(w)), w)]
  {
    var ps := HumaxPulses(d, w);
    HumaxPulsesSendable(d, w);
    DecodeEncoded(templates, rc, ps);
    PulseRunKinds(templates, rc.decoders, ps);
    HumaxPulsesDecode(rc.decoders.humax, d, w);
    LowBitsIsMod(d, w);
  }
}

=== FILE: ir_tables.dfy ===
/**
 * The command tables of the IR transceiver integration: the captured raw
 * signals the raw matcher listens for, and the known Sony and Humax
 * commands that name resolution looks up.
 */
module IrTables {
  import opened Wrappers
  import opened IrTiming
  import opened IrCommand
  import opened RawDecoder

  /** The on/off durations of the DenonCdr capture (96 values). */
  const DenonCdr: seq<int> :=
    [
      11, 36, 11, 37, 12, 36, 11, 87, 11, 36, 12, 37, 11, 86, 11, 86, 12,
      86, 11, 36, 10, 37, 12, 86, 11, 86, 11, 36, 12, 35, 12, 2099
    ] + [
      10, 37, 11, 37, 11, 37, 10, 87, 10, 38, 12, 86, 11, 36, 11, 37, 11,
      37, 11, 86, 11, 86, 13, 36, 11, 37, 10, 87, 12, 85, 13, 2099
    ] + [
      11, 36, 10, 37, 12, 37, 10, 87, 10, 37, 12, 37, 10, 87, 10, 87, 12,
      87, 11, 37, 11, 37, 11, 87, 11, 86, 10, 37, 11, 36, 12, 65535
    ]

  /** The on/off durations of the ApplePlay capture (68 values). */
  const ApplePlay: seq<int> :=
    [
      425, 215, 27, 27, 27, 80, 27, 80, 27, 80, 27, 27, 27, 80, 27, 80, 27,
      80, 27, 80, 27, 80, 27, 80, 27, 27, 27, 27, 27, 27, 27, 27, 27, 80
    ] + [
      27, 80, 27, 28, 26, 80, 27, 27, 27, 27, 27, 27, 27, 27, 27, 27, 27,
      27, 27, 80, 27, 80, 27, 27, 27, 27, 27, 27, 27, 80, 27, 27, 27, 65535
    ]

  /** The on/off durations of the AppleMenu capture (68 values). */
  const AppleMenu: seq<int> :=
    [
      426, 215, 27, 27, 27, 80, 27, 80, 27, 80, 27, 27, 27, 80, 27, 80, 27,
      80, 27, 80, 27, 81, 26, 80, 27, 27, 27, 27, 27, 27, 27, 27, 27, 80
    ] + [
      27, 80, 27, 80, 27, 27, 27, 27, 27, 27, 27, 27, 27, 27, 27, 27, 27,
      27, 27, 81, 26, 80, 27, 27, 27, 27, 27, 27, 27, 80, 27, 27, 27, 65535
    ]

  /** The on/off durations of the AppleDown capture (68 values). */
  const AppleDown: seq<int> :=
    [
      426, 215, 26, 27, 27, 80, 27, 80, 27, 80, 26, 28, 27, 81, 26, 80, 27,
      80, 27, 80, 27, 80, 26, 81, 26, 28, 26, 28, 26, 27, 27, 28, 26, 80
    ] + [
      27, 27, 27, 27, 27, 80, 27, 80, 27, 27, 27, 28, 26, 27, 27, 27, 27,
      27, 26, 81, 27, 80, 27, 28, 26, 27, 27, 27, 27, 80, 27, 27, 27, 65535
    ]

  /** The on/off durations of the AppleUp capture (68 values). */
  const AppleUp: seq<int> :=
    [
      425, 215, 26, 28, 26, 80, 27, 81, 26, 81, 27, 28, 27, 80, 26, 81, 27,
      80, 26, 81, 26, 81, 26, 81, 26, 28, 27, 27, 27, 28, 26, 28, 26, 81
    ] + [
      26, 28, 26, 81, 26, 27, 26, 81, 26, 28, 26, 28, 26, 28, 26, 27, 27,
      28, 27, 80, 27, 80, 26, 28, 26, 28, 27, 28, 26, 82, 26, 28, 26, 65535
    ]

  /** The on/off durations of the AppleLeft capture (68 values). */
  const AppleLeft: seq<int> :=
    [
      425, 216, 26, 29, 25, 82, 26, 81, 26, 81, 26, 27, 26, 81, 26, 81, 26,
      81, 27, 80, 27, 80, 26, 81, 26, 27, 26, 29, 26, 27, 26, 28, 26, 81
    ] + [
      26, 81, 27, 28, 26, 29, 26, 82, 26, 28, 27, 28, 26, 28, 26, 28, 27,
      28, 26, 80, 26, 81, 26, 28, 26, 28, 26, 27, 26, 81, 26, 28, 26, 65535
    ]

  /** The on/off durations of the AppleRight capture (68 values). */
  const AppleRight: seq<int> :=
    [
      425, 216, 26, 28, 26, 81, 27, 80, 27, 81, 27, 27, 26, 81, 27, 80, 26,
      81, 26, 81, 26, 81, 26, 81, 26, 28, 26, 28, 26, 28, 26, 28, 26, 81
    ] + [
      26, 28, 26, 81, 26, 81, 26, 28, 26, 28, 26, 28, 27, 27, 26, 28, 27,
      27, 26, 81, 26, 81, 27, 27, 27, 27, 26, 28, 27, 80, 27, 27, 26, 65535
    ]

  /** The raw templates, in table order. */
  const RawTemplates: seq<seq<int>> := [DenonCdr, ApplePlay, AppleMenu, AppleDown, AppleUp, AppleLeft, AppleRight]

  /**
   * The known commands. Their creation time takes no part in comparisons,
   * so it is fixed at 0.
   */
  const KnownCommands: seq<IrCmd> := KnownSony + KnownHumax

  const KnownSony: seq<IrCmd> := [
    IrCmd(KindSony, Bits(2226), 12, Some("CD Play"), 0),
    IrCmd(KindSony, Bits(2232), 12, Some("CD Stop"), 0),
    IrCmd(KindSony, Bits(2233), 12, Some("CD Pause"), 0),
    IrCmd(KindSony, Bits(2225), 12, Some("CD Next Track"), 0),
    IrCmd(KindSony, Bits(2224), 12, Some("CD Pervious Track"), 0),
    IrCmd(KindSony, Bits(929050), 20, Some("Blue-ray Play"), 0),
    IrCmd(KindSony, Bits(929070), 20, Some("Blue-ray On"), 0),
    IrCmd(KindSony, Bits(929071), 20, Some("Blue-ray Off"), 0),
    IrCmd(KindSony, Bits(174), 12, Some("TV On"), 0),
    IrCmd(KindSony, Bits(175), 12, Some("TV Off"), 0),
    IrCmd(KindSony, Bits(3418), 15, Some("TV Input HDMI1"), 0),
    IrCmd(KindSony, Bits(3419), 15, Some("TV Input HDMI2"), 0),
    IrCmd(KindSony, Bits(3420), 15, Some("TV Input HDMI3"), 0),
    IrCmd(KindSony, Bits(3421), 15, Some("TV Input HDMI4"), 0),
    IrCmd(KindSony, Bits(22560), 15, Some("Reciever Night Mode"), 0),
    IrCmd(KindSony, Bits(6165), 15, Some("Reciever Power"), 0)
  ]

  const KnownHumax: seq<IrCmd> := [
    IrCmd(KindHumax, Bits(4077654016), 32, Some("PVR On"), 0),
    IrCmd(KindHumax, Bits(3960672256), 32, Some("PVR OK"), 0)
  ]

  lemma DenonCdrReplayable()
    ensures Replayable(DenonCdr)
  {
  }

  lemma ApplePlayReplayable()
    ensures Replayable(ApplePlay)
  {
  }

  lemma AppleMenuReplayable()
    ensures Replayable(AppleMenu)
  {
  }

  lemma AppleDownReplayable()
    ensures Replayable(AppleDown)
  {
  }

  lemma AppleUpReplayable()
    ensures Replayable(AppleUp)
  {
  }

  lemma AppleLeftReplayable()
    ensures Replayable(AppleLeft)
  {
  }

  lemma AppleRightReplayable()
    ensures Replayable(AppleRight)
  {
  }

  /**
   * Every raw template has a first duration and ends with the sentinel,
   * which appears nowhere else; so each can be matched.
   */
  lemma RawTemplatesReplayable()
    ensures WellFormedTemplates(RawTemplates)
    ensures forall i :: 0 <= i < |RawTemplates| ==> Replayable(RawTemplates[i])
  {
    DenonCdrReplayable();
    ApplePlayReplayable();
    AppleMenuReplayable();
    AppleDownReplayable();
    AppleUpReplayable();
    AppleLeftReplayable();
    AppleRightReplayable();
  }

  /** No two known commands are equal, so at most one entry can name a command. */
  lemma KnownCommandsDistinct()
    ensures forall i, j :: 0 <= i < j < |KnownCommands| ==> !SameCommand(KnownCommands[i], KnownCommands[j])
  {
  }

  /** An entry that equals the command, with no equal entry before it, is the one name resolution picks. */
  lemma KnownNameAt(known: seq<IrCmd>, cmd: IrCmd, k: nat)
    requires k < |known| && SameCommand(known[k], cmd)
    requires forall j :: 0 <= j < k ==> !SameCommand(known[j], cmd)
    ensures KnownName(known, cmd) == known[k].name
  {
  }

  /** Sony 2226 with 12 bits, received at any time, resolves to "CD Play", the first entry. */
  lemma CdPlayName(now: int)
    ensures KnownName(KnownCommands, IrCmd(KindSony, Bits(2226), 12, None, now)) == Some("CD Play")
  {
    KnownNameAt(KnownCommands, IrCmd(KindSony, Bits(2226), 12, None, now), 0);
  }

  /** The Humax power code resolves to "PVR On": every entry before it is a Sony command. */
  lemma PvrOnName(now: int)
    ensures KnownName(KnownCommands, IrCmd(KindHumax, Bits(4077654016), 32, None, now)) == Some("PVR On")
  {
    var cmd := IrCmd(KindHumax, Bits(4077654016), 32, None, now);
    assert forall j :: 0 <= j < |KnownSony| ==> KnownSony[j].kind == KindSony;
    assert |KnownSony| == 16;
    forall j | 0 <= j < 16
      ensures !SameCommand(KnownCommands[j], cmd)
    {
      assert KnownCommands[j] == KnownSony[j];
    }
    assert KnownCommands[16] == KnownHumax[0];
    KnownNameAt(KnownCommands, cmd, 16);
  }

  /** Sony 2226 sent with 15 bits has no name: width takes part in equality. */
  lemma WrongWidthUnnamed(now: int)
    ensures KnownName(KnownCommands, IrCmd(KindSony, Bits(2226), 15, None, now)) == None
  {
    var cmd := IrCmd(KindSony, Bits(2226), 15, None, now);
    assert forall j :: 0 <= j < |KnownSony| ==> !SameCommand(KnownSony[j], cmd);
    assert forall j :: 0 <= j < |KnownHumax| ==> !SameCommand(KnownHumax[j], cmd);
    forall j | 0 <= j < |KnownCommands|
      ensures !SameCommand(KnownCommands[j], cmd)
    {
      if j < |KnownSony| {
        assert KnownCommands[j] == KnownSony[j];
      } else {
        assert KnownCommands[j] == KnownHumax[j - |KnownSony|];
      }
    }
  }
}

=== FILE: ir_timing.dfy ===
/**
 * Pulse timings of the three IR schemes, in transceiver sample units of
 * 21.333333333 us.
 *
 * The Sony timings are floating-point expressions in the integration
 * (600 us / 21.333333333 = 28.1250000004 samples per bit). Observed
 * durations are whole numbers, so each decoder window [c - 6, c + 6] with a
 * fractional centre c is exactly the integer interval written below, and the
 * encoder's `int()` truncation gives the integer pulse lengths.
 */
module IrTiming {

  /** One IR pulse: how long the carrier is on, then how long it is off. */
  datatype Pulse = Pulse(on: int, off: int)

  /** The end-of-burst sentinel duration. */
  const EndOfBurst := 0xFFFF

  // Sony. Encoder lengths: int(28.125) = 28, int(56.25) = 56,
  // int(112.5) = 112, int(40000 / 21.333333333) = int(1875.00000003) = 1875.
  const SonyOneT := 28
  const SonyTwoT := 56
  const SonyStart := 112
  const SonyFrameGap := 1875
  const SonyRepeatFrames := 3
  /** Smallest whole off time at or above 4 bit periods (112.5000000018). */
  const SonyMinEndOff := 113

  /** Within 6 samples of one bit period 28.125: 22.125..34.125. */
  predicate SonyNearOneT(t: int) { 23 <= t <= 34 }
  /** Within 6 samples of two bit periods 56.25: 50.25..62.25. */
  predicate SonyNearTwoT(t: int) { 51 <= t <= 62 }
  /** Within 6 samples of the start pulse 112.5: 106.5..118.5. */
  predicate SonyNearStart(t: int) { 107 <= t <= 118 }

  // Humax: integer constants, window of 4 samples.
  const HumaxStartOn := 418
  const HumaxStartOff := 210
  /** HUMAX_START_OFF_SAMPLES / 2 = 105.0, truncated by the encoder to 105. */
  const HumaxTailOff := 105
  const HumaxDataEndOff := 2236
  const HumaxOneT := 26
  const HumaxThreeT := 78

  predicate HumaxNear(t: int, centre: int) { centre - 4 <= t <= centre + 4 }

  /** The raw template matcher's tolerance. */
  const RawThreshold := 4

  predicate RawNear(t: int, centre: int) { centre - RawThreshold <= t <= centre + RawThreshold }
}

=== FILE: pulse_demux.dfy ===
/**
 * The receive-side byte demultiplexer. The transceiver reports each pulse
 * as four bytes: the high and low byte of the on time, then of the off
 * time. A counter 0..3 says which of the four the next byte is; two 0xFF
 * bytes in a row can only come from an end-of-burst off time, so they
 * force the counter back to 0.
 */
module PulseDemux {
  import opened Bits

  /** `rawByteCount`, `prevIntData`, `onTime` and `offTime`. */
  datatype Demux = Demux(byteCount: nat, prevByte: int, onTime: nat, offTime: nat)

  const DemuxInit := Demux(0, 0, 0, 0)

  /** A completed value: an on time after byte 1, an on/off pair after byte 3. */
  datatype Assembled = NoValue | OnValue(on: nat) | PairValue(on: nat, off: nat)

  datatype DemuxOut = DemuxOut(state: Demux, value: Assembled)

  /** One byte of `decodeRawData`: shift in the high byte, or-in the low byte. */
  function DemuxStep(m: Demux, b: byte): (r: DemuxOut)
    // the counter cycles 0, 1, 2, 3, 0; a 0xFF after a 0xFF puts it back to 0
    ensures m.prevByte == 0xFF && b == 0xFF ==> r.state.byteCount == 0
    ensures !(m.prevByte == 0xFF && b == 0xFF) && m.byteCount < 3 ==> r.state.byteCount == m.byteCount + 1
    ensures m.byteCount >= 3 ==> r.state.byteCount == 0
    ensures r.state.prevByte == b
    // a value is completed exactly on bytes 1 and 3 of a group
    ensures r.value.OnValue? <==> m.byteCount == 1
    ensures r.value.PairValue? <==> m.byteCount >= 3
    // the on time survives the off-time bytes
    ensures m.byteCount >= 2 ==> r.state.onTime == m.onTime
    ensures r.value.PairValue? ==> r.value.on == m.onTime
  {
    var count := if m.prevByte == 0xFF && b == 0xFF then 0 else if m.byteCount < 3 then m.byteCount + 1 else 0;
    if m.byteCount == 0 then
      DemuxOut(Demux(count, b, b * 256, m.offTime), NoValue)
    else if m.byteCount == 1 then
      var on := BitOr(m.onTime, b);
      DemuxOut(Demux(count, b, on, m.offTime), OnValue(on))
    else if m.byteCount == 2 then
      DemuxOut(Demux(count, b, m.onTime, b * 256), NoValue)
    else
      var off := BitOr(m.offTime, b);
      DemuxOut(Demux(count, b, m.onTime, off), PairValue(m.onTime, off))
  }

  /**
   * The `rawByteCount = 0` of the transceiver's re-initialisation and of
   * the end of a transmission: the counter restarts at the first byte of a
   * group, and the last byte and the partial times are kept.
   */
  function DemuxReset(m: Demux): (r: Demux)
    ensures r.byteCount == 0
    ensures r.prevByte == m.prevByte && r.onTime == m.onTime && r.offTime == m.offTime
  {
    m.(byteCount := 0)
  }

  /** The demultiplexer run over a byte stream: its final state and the values completed, in order. */
  datatype DemuxRunOut = DemuxRunOut(state: Demux, values: seq<Assembled>)

  function DemuxRun(m: Demux, bytes: seq<byte>): (r: DemuxRunOut)
    ensures |r.values| == |bytes|
    decreases |bytes|
  {
    if |bytes| == 0 then DemuxRunOut(m, [])
    else
      var first := DemuxStep(m, bytes[0]);
      var rest := DemuxRun(first.state, bytes[1..]);
      DemuxRunOut(rest.state, [first.value] + rest.values)
  }

  /** A run whose first step is known continues from that step's state. */
  lemma DemuxRunAfter(m: Demux, bytes: seq<byte>, first: DemuxOut)
    requires |bytes| > 0 && DemuxStep(m, bytes[0]) == first
    ensures var rest := DemuxRun(first.state, bytes[1..]);
      DemuxRun(m, bytes) == DemuxRunOut(rest.state, [first.value] + rest.values)
  {
  }

  /**
   * A group of four bytes with no double 0xFF inside its first three
   * bytes is read as one big-endian on/off pair, from counter 0 back to
   * counter 0: the on time after the second byte, the pair after the
   * fourth.
   */
  lemma DemuxQuad(m: Demux, a: byte, b: byte, c: byte, d: byte)
    requires m.byteCount == 0
    requires a != 0xFF && !(b == 0xFF && c == 0xFF)
    ensures var r := DemuxRun(m, [a, b, c, d]);
      && r.state == Demux(0, d, a * 256 + b, c * 256 + d)
      && r.values == [NoValue, OnValue(a * 256 + b), NoValue, PairValue(a * 256 + b, c * 256 + d)]
  {
    OrLowByte(a, b);
    OrLowByte(c, d);
    var s1 := DemuxStep(m, a);
    assert s1 == DemuxOut(Demux(1, a, a * 256, m.offTime), NoValue);
    var s2 := DemuxStep(s1.state, b);
    assert s2 == DemuxOut(Demux(2, b, a * 256 + b, m.offTime), OnValue(a * 256 + b));
    var s3 := DemuxStep(s2.state, c);
    assert s3 == DemuxOut(Demux(3, c, a * 256 + b, c * 256), NoValue);
    var s4 := DemuxStep(s3.state, d);
    assert s4 == DemuxOut(Demux(0, d, a * 256 + b, c * 256 + d), PairValue(a * 256 + b, c * 256 + d));
    assert DemuxRun(s4.state, []) == DemuxRunOut(s4.state, []);
    DemuxRunAfter(s3.state, [d], s4);
    assert [c, d][1..] == [d];
    DemuxRunAfter(s2.state, [c, d], s3);
    assert [b, c, d][1..] == [c, d];
    DemuxRunAfter(s1.state, [b, c, d], s2);
    assert [a, b, c, d][1..] == [b, c, d];
    DemuxRunAfter(m, [a, b, c, d], s1);
  }

  /** Demultiplexing two chunks is demultiplexing the first, then the second from where it left off. */
  lemma {:induction false} DemuxRunAppend(m: Demux, a: seq<byte>, b: seq<byte>)
    ensures var ra := DemuxRun(m, a);
      var rb := DemuxRun(ra.state, b);
      DemuxRun(m, a + b) == DemuxRunOut(rb.state, ra.values + rb.values)
    decreases |a|
  {
    if |a| == 0 {
      assert a + b == b;
    } else {
      assert (a + b)[0] == a[0];
      assert (a + b)[1..] == a[1..] + b;
      DemuxRunAppend(DemuxStep(m, a[0]).state, a[1..], b);
    }
  }
}

=== FILE: raw_decoder.dfy ===
/**
 * The raw template matcher. Raw signals have no decoder of their own: a
 * fixed table of captured on/off duration sequences (each ending with the
 * sentinel) is matched duration by duration against what is received.
 *
 * The candidate loop removes entries from the list it is iterating over,
 * as Python's `for x in list: ... list.remove(x)` does: after a removal the
 * following candidate moves into the current slot and the loop index moves
 * past it, so that candidate is not examined at this position.
 */
module RawDecoder {
  import opened IrTiming
  import opened IrCommand

  /** `rawBitPossition` and `rawCandidateCmds`. */
  datatype RawState = RawState(position: nat, candidates: seq<seq<int>>)

  const RawInit := RawState(0, [])

  /** The new state and the templates matched at this duration. */
  datatype RawOut = RawOut(state: RawState, matched: seq<seq<int>>)

  /** Every template has a first duration; the matcher reads it unguarded. */
  predicate WellFormedTemplates(templates: seq<seq<int>>)
  {
    forall i :: 0 <= i < |templates| ==> |templates[i]| > 0
  }

  /** The commands matched templates are passed on as: `processCommand(TYPE_RAW, cmd.data, 0)`. */
  function RawDetections(ts: seq<seq<int>>): (r: seq<Detection>)
    ensures |r| == |ts|
    ensures forall i :: 0 <= i < |ts| ==> r[i] == Detection(KindRaw, Pulses(ts[i]), 0)
  {
    if |ts| == 0 then [] else [Detection(KindRaw, Pulses(ts[0]), 0)] + RawDetections(ts[1..])
  }

  /** The templates whose first duration is within tolerance of `time`, in table order. */
  function StartCandidates(templates: seq<seq<int>>, time: int): (r: seq<seq<int>>)
    requires WellFormedTemplates(templates)
    ensures forall t :: t in r ==> t in templates && RawNear(time, t[0])
    ensures forall i :: 0 <= i < |templates| && RawNear(time, templates[i][0]) ==> templates[i] in r
  {
    if |templates| == 0 then []
    else
      (if RawNear(time, templates[0][0]) then [templates[0]] else [])
      + StartCandidates(templates[1..], time)
  }

  /** Matching a table in two parts gives the candidates of the first part, then those of the second. */
  lemma {:induction false} StartCandidatesAppend(a: seq<seq<int>>, b: seq<seq<int>>, time: int)
    requires WellFormedTemplates(a) && WellFormedTemplates(b)
    ensures WellFormedTemplates(a + b)
    ensures StartCandidates(a + b, time) == StartCandidates(a, time) + StartCandidates(b, time)
    decreases |a|
  {
    var ab := a + b;
    assert WellFormedTemplates(ab) by {
      forall i | 0 <= i < |ab|
        ensures |ab[i]| > 0
      {
        if i < |a| {
          assert ab[i] == a[i];
        } else {
          assert ab[i] == b[i - |a|];
        }
      }
    }
    if |a| == 0 {
      assert ab == b;
    } else {
      var rest := a[1..];
      assert ab[0] == a[0] && ab[1..] == rest + b;
      assert WellFormedTemplates(rest) by {
        assert forall i :: 0 <= i < |rest| ==> rest[i] == a[i + 1];
      }
      StartCandidatesAppend(rest, b, time);
      var head := if RawNear(time, a[0][0]) then [a[0]] else [];
      assert StartCandidates(ab, time) == head + StartCandidates(rest + b, time);
      assert StartCandidates(a, time) == head + StartCandidates(rest, time);
      SplitConcat(head, StartCandidates(rest, time), StartCandidates(b, time));
    }
  }

  lemma SplitConcat<T>(x: seq<T>, y: seq<T>, z: seq<T>)
    ensures x + (y + z) == (x + y) + z
  {
  }

  /** A one-template table gives that template exactly when its first duration fits. */
  lemma StartCandidatesOne(t: seq<int>, time: int)
    requires |t| > 0
    ensures StartCandidates([t], time) == if RawNear(time, t[0]) then [t] else []
  {
    assert [t][1..] == [];
  }

  /** Python's `list.remove(x)`: drops the first element equal to x. */
  function RemoveFirst(s: seq<seq<int>>, x: seq<int>): (r: seq<seq<int>>)
    ensures x in s ==> multiset(r) == multiset(s) - multiset{x} && |r| == |s| - 1
    ensures x !in s ==> r == s
  {
    if |s| == 0 then []
    else
      assert s == [s[0]] + s[1..];
      if s[0] == x then s[1..]
      else [s[0]] + RemoveFirst(s[1..], x)
  }

  /** It is the first occurrence of x that goes, and the other elements keep their order. */
  lemma {:induction false} RemoveFirstKeepsOrder(s: seq<seq<int>>, x: seq<int>)
    requires x in s
    ensures RemoveFirst(s, x) == s[..IndexOf(s, x)] + s[IndexOf(s, x) + 1..]
  {
    if s[0] == x {
      assert s[..0] + s[1..] == s[1..];
    } else {
      var tail := s[1..];
      assert x in tail by {
        assert s == [s[0]] + tail;
      }
      RemoveFirstKeepsOrder(tail, x);
      var k := IndexOf(tail, x);
      assert IndexOf(s, x) == k + 1;
      assert RemoveFirst(s, x) == [s[0]] + RemoveFirst(tail, x);
      SplitAfterHead(s, k);
    }
  }

  /** Putting the head back in front of a tail split at k splits the whole sequence at k + 1. */
  lemma SplitAfterHead<T>(s: seq<T>, k: nat)
    requires k + 1 < |s|
    ensures [s[0]] + (s[1..][..k] + s[1..][k + 1..]) == s[..k + 1] + s[k + 2..]
  {
    assert s[1..][k + 1..] == s[k + 2..];
    assert [s[0]] + s[1..][..k] == s[..k + 1];
  }

  /** Where the first element equal to x sits. */
  function IndexOf(s: seq<seq<int>>, x: seq<int>): (i: nat)
    requires x in s
    ensures i < |s| && s[i] == x && x !in s[..i]
  {
    if s[0] == x then 0
    else
      assert x in s[1..] by {
        assert s == [s[0]] + s[1..];
      }
      var k := IndexOf(s[1..], x);
      assert s[..k + 1] == [s[0]] + s[1..][..k];
      k + 1
  }

  datatype Scan = Scan(candidates: seq<seq<int>>, matched: seq<seq<int>>)

  /**
   * The candidate loop from list index i on: a candidate that is too short
   * or does not fit `time` is removed; one that fits and whose next stored
   * duration is the sentinel is matched and removed; any other stays.
   * Every matched template used up one candidate.
   */
  function ScanCandidates(cands: seq<seq<int>>, i: nat, pos: nat, time: int): (r: Scan)
    ensures multiset(r.candidates) + multiset(r.matched) <= multiset(cands)
    ensures forall t :: t in r.matched ==> Completes(t, pos, time)
    decreases |cands| - i
  {
    if i >= |cands| then Scan(cands, [])
    else
      var c := cands[i];
      var fits := |c| > pos + 1 && RawNear(time, c[pos]);
      var complete := Completes(c, pos, time);
      var next := if fits && !complete then cands else RemoveFirst(cands, c);
      var here := if complete then [c] else [];
      ScanRemoves(cands, c, fits && !complete, complete);
      var rest := ScanCandidates(next, i + 1, pos, time);
      ScanAccounts(multiset(rest.candidates), multiset(rest.matched), multiset(here), multiset(next), multiset(cands));
      assert multiset(here + rest.matched) == multiset(here) + multiset(rest.matched);
      Scan(rest.candidates, here + rest.matched)
  }

  /** A candidate is either kept, or removed once, and a matched one is one of those removed. */
  lemma ScanRemoves(cands: seq<seq<int>>, c: seq<int>, keep: bool, complete: bool)
    requires c in cands && !(keep && complete)
    ensures var next := if keep then cands else RemoveFirst(cands, c);
      multiset(next) + multiset(if complete then [c] else []) <= multiset(cands)
  {
    if !keep {
      assert multiset(RemoveFirst(cands, c)) + multiset{c} == multiset(cands);
    }
  }

  /** The bookkeeping of one candidate-loop step: what is left and what matched never outnumber what there was. */
  lemma ScanAccounts<T>(left: multiset<T>, later: multiset<T>, here: multiset<T>, next: multiset<T>, cands: multiset<T>)
    requires left + later <= next && next + here <= cands
    ensures left + (here + later) <= cands
  {
  }

  /** Whether template t fits `time` at position pos and goes on after it: such a candidate is kept. */
  predicate Continues(t: seq<int>, pos: nat, time: int)
  {
    |t| > pos + 1 && RawNear(time, t[pos]) && t[pos + 1] != EndOfBurst
  }

  /** The candidate loop never removes a copy of a template that fits and goes on. */
  lemma {:induction false} ScanKeeps(cands: seq<seq<int>>, i: nat, pos: nat, time: int, c: seq<int>)
    requires Continues(c, pos, time)
    ensures multiset(ScanCandidates(cands, i, pos, time).candidates)[c] == multiset(cands)[c]
    decreases |cands| - i
  {
    if i < |cands| {
      var d := cands[i];
      var keep := |d| > pos + 1 && RawNear(time, d[pos]) && !Completes(d, pos, time);
      var next := if keep then cands else RemoveFirst(cands, d);
      assert ScanCandidates(cands, i, pos, time).candidates == ScanCandidates(next, i + 1, pos, time).candidates;
      if !keep {
        assert d != c;
        assert multiset(next) == multiset(cands) - multiset{d};
      }
      ScanKeeps(next, i + 1, pos, time, c);
    }
  }

  /** ScanKeeps for every such template at once. */
  lemma ScanKeepsAll(cands: seq<seq<int>>, pos: nat, time: int)
    ensures forall c :: Continues(c, pos, time) ==>
      multiset(ScanCandidates(cands, 0, pos, time).candidates)[c] == multiset(cands)[c]
  {
    forall c | Continues(c, pos, time)
      ensures multiset(ScanCandidates(cands, 0, pos, time).candidates)[c] == multiset(cands)[c]
    {
      ScanKeeps(cands, 0, pos, time, c);
    }
  }

  /** Whether template t fits `time` at position pos and ends right after it. */
  predicate Completes(t: seq<int>, pos: nat, time: int)
  {
    |t| > pos + 1 && RawNear(time, t[pos]) && t[pos + 1] == EndOfBurst
  }

  /** `decodeRaw`, one duration (on and off times are both fed in). */
  function RawStep(templates: seq<seq<int>>, s: RawState, time: int): (r: RawOut)
    requires WellFormedTemplates(templates)
    ensures time == EndOfBurst ==> r.state == RawInit
    ensures time != EndOfBurst ==> r.state.position == s.position + 1
    // at position 0 the fitting templates become candidates
    ensures s.position == 0 ==> r.matched == []
    ensures s.position == 0 && time != EndOfBurst ==>
      r.state.candidates == s.candidates + StartCandidates(templates, time)
    // later, candidates are only removed, and each match uses one up
    ensures s.position > 0 ==>
      multiset(if time == EndOfBurst then [] else r.state.candidates) + multiset(r.matched)
      <= multiset(s.candidates)
    ensures s.position > 0 ==> forall t :: t in r.matched ==> Completes(t, s.position, time)
    // and a candidate that fits and goes on is kept, every copy of it
    ensures s.position > 0 && time != EndOfBurst ==> forall t :: Continues(t, s.position, time) ==>
      multiset(r.state.candidates)[t] == multiset(s.candidates)[t]
  {
    ScanKeepsAll(s.candidates, s.position, time);
    var scan :=
      if s.position == 0 then Scan(s.candidates + StartCandidates(templates, time), [])
      else ScanCandidates(s.candidates, 0, s.position, time);
    var next := if time == EndOfBurst then RawInit else RawState(s.position + 1, scan.candidates);
    RawOut(next, scan.matched)
  }

  /**
   * What holds between durations: at position 0 there are no candidates,
   * and every candidate is a template.
   */
  predicate RawInvariant(templates: seq<seq<int>>, s: RawState)
  {
    && (s.position == 0 ==> s.candidates == [])
    && forall t :: t in s.candidates ==> t in templates
  }

  /**
   * The invariant is kept; so at position 0 the candidates are exactly the
   * fitting templates, and every match is a template.
   */
  lemma RawStepKeepsInvariant(templates: seq<seq<int>>, s: RawState, time: int)
    requires WellFormedTemplates(templates) && RawInvariant(templates, s)
    ensures var r := RawStep(templates, s, time);
      && RawInvariant(templates, r.state)
      && (s.position == 0 && time != EndOfBurst ==> r.state.candidates == StartCandidates(templates, time))
      && forall t :: t in r.matched ==> t in templates
  {
    var r := RawStep(templates, s, time);
    if s.position > 0 {
      var rest := if time == EndOfBurst then [] else r.state.candidates;
      assert multiset(rest) + multiset(r.matched) <= multiset(s.candidates);
      forall t | t in r.matched
        ensures t in templates
      {
        assert t in multiset(r.matched);
        assert t in multiset(s.candidates);
      }
      forall t | t in rest
        ensures t in templates
      {
        assert t in multiset(rest);
        assert t in multiset(s.candidates);
      }
    }
  }

  /** The matcher run over a sequence of durations. */
  function RawRun(templates: seq<seq<int>>, s: RawState, times: seq<int>): RawOut
    requires WellFormedTemplates(templates)
    decreases |times|
  {
    if |times| == 0 then RawOut(s, [])
    else
      var first := RawStep(templates, s, times[0]);
      var rest := RawRun(templates, first.state, times[1..]);
      RawOut(rest.state, first.matched + rest.matched)
  }

  /** A template that can be matched: its only sentinel is its last value, after at least two durations. */
  predicate Replayable(t: seq<int>)
  {
    |t| >= 3 && t[|t| - 1] == EndOfBurst && forall i :: 0 <= i < |t| - 1 ==> t[i] != EndOfBurst
  }

  /** Before its last duration the lone candidate fits and stays. */
  lemma RawKeepStep(t: seq<int>, p: nat)
    requires Replayable(t) && 1 <= p < |t| - 2
    ensures RawStep([t], RawState(p, [t]), t[p]) == RawOut(RawState(p + 1, [t]), [])
  {
    assert ScanCandidates([t], 1, p, t[p]) == Scan([t], []);
    assert ScanCandidates([t], 0, p, t[p]) == Scan([t], []);
  }

  /** At its last duration the lone candidate is matched and removed. */
  lemma RawMatchStep(t: seq<int>, p: nat)
    requires Replayable(t) && p == |t| - 2 && p >= 1
    ensures RawStep([t], RawState(p, [t]), t[p]) == RawOut(RawState(p + 1, []), [t])
  {
    assert RemoveFirst([t], t) == [];
    assert ScanCandidates([], 1, p, t[p]) == Scan([], []);
    assert ScanCandidates([t], 0, p, t[p]) == Scan([], [t]);
  }

  /** The sentinel resets the emptied matcher. */
  lemma RawEndStep(templates: seq<seq<int>>, p: nat)
    requires WellFormedTemplates(templates) && p >= 1
    ensures RawRun(templates, RawState(p, []), [EndOfBurst]) == RawOut(RawInit, [])
  {
    assert ScanCandidates([], 0, p, EndOfBurst) == Scan([], []);
    assert [EndOfBurst][1..] == [];
  }

  /** A run whose first step is known continues from that step's state. */
  lemma RawRunAfter(templates: seq<seq<int>>, s: RawState, times: seq<int>, s1: RawState, m1: seq<seq<int>>)
    requires WellFormedTemplates(templates) && |times| > 0
    requires RawStep(templates, s, times[0]) == RawOut(s1, m1)
    ensures var rest := RawRun(templates, s1, times[1..]);
      RawRun(templates, s, times) == RawOut(rest.state, m1 + rest.matched)
  {
  }

  /** The last two durations of a replay: the match, then the reset. */
  lemma RawReplayLast(t: seq<int>, p: nat)
    requires Replayable(t) && p == |t| - 2 && p >= 1
    ensures RawRun([t], RawState(p, [t]), t[p..]) == RawOut(RawInit, [t])
  {
    RawMatchStep(t, p);
    RawRunAfter([t], RawState(p, [t]), t[p..], RawState(p + 1, []), [t]);
    assert t[p..][1..] == [EndOfBurst];
    RawEndStep([t], p + 1);
  }

  /** A run whose first step matches nothing is the run from that step's state. */
  lemma RawRunQuiet(templates: seq<seq<int>>, s: RawState, times: seq<int>, s1: RawState)
    requires WellFormedTemplates(templates) && |times| > 0
    requires RawStep(templates, s, times[0]) == RawOut(s1, [])
    ensures RawRun(templates, s, times) == RawRun(templates, s1, times[1..])
  {
    var rest := RawRun(templates, s1, times[1..]);
    assert [] + rest.matched == rest.matched;
  }

  /** A replay from position p whose first step keeps the candidate continues as the replay from q = p + 1. */
  lemma RawReplayKeep(t: seq<int>, p: nat, q: nat)
    requires |t| > 0 && p < |t| && q == p + 1
    requires RawStep([t], RawState(p, [t]), t[p]) == RawOut(RawState(q, [t]), [])
    ensures RawRun([t], RawState(p, [t]), t[p..]) == RawRun([t], RawState(q, [t]), t[q..])
  {
    var tail := t[p..];
    assert tail[0] == t[p] && tail[1..] == t[q..];
    RawRunQuiet([t], RawState(p, [t]), tail, RawState(q, [t]));
  }

  lemma {:induction false} RawReplayFrom(t: seq<int>, p: nat)
    requires Replayable(t) && 1 <= p <= |t| - 2
    ensures RawRun([t], RawState(p, [t]), t[p..]) == RawOut(RawInit, [t])
    decreases |t| - p
  {
    if p < |t| - 2 {
      var q := p + 1;
      RawReplayFrom(t, q);
      RawKeepStep(t, p);
      RawReplayKeep(t, p, q);
    } else {
      RawReplayLast(t, p);
    }
  }

  /**
   * With a single template, replaying its durations matches it exactly
   * once and leaves the matcher reset.
   */
  lemma RawReplaySingle(t: seq<int>)
    requires Replayable(t)
    ensures RawRun([t], RawInit, t) == RawOut(RawInit, [t])
  {
    assert StartCandidates([t], t[0]) == [t] by {
      assert [t][1..] == [];
      assert StartCandidates([], t[0]) == [];
    }
    RawRunAfter([t], RawInit, t, RawState(1, [t]), []);
    RawReplayFrom(t, 1);
  }

  /** Two templates that agree up to position 1 and differ at position 2. */
  const SkipFirst := [10, 20, 99, EndOfBurst]
  const SkipSecond := [10, 20, 30, EndOfBurst]
  const SkipTable := [SkipFirst, SkipSecond]

  lemma SkipStart()
    ensures RawStep(SkipTable, RawInit, 10) == RawOut(RawState(1, SkipTable), [])
  {
    assert SkipTable[1..] == [SkipSecond] && SkipTable[1..][1..] == [];
    assert StartCandidates([], 10) == [];
    assert StartCandidates([SkipSecond], 10) == [SkipSecond];
  }

  lemma SkipKeep()
    ensures RawStep(SkipTable, RawState(1, SkipTable), 20) == RawOut(RawState(2, SkipTable), [])
  {
    assert RawNear(20, SkipFirst[1]) && !Completes(SkipFirst, 1, 20);
    assert RawNear(20, SkipSecond[1]) && !Completes(SkipSecond, 1, 20);
    assert ScanCandidates(SkipTable, 2, 1, 20) == Scan(SkipTable, []);
    assert ScanCandidates(SkipTable, 1, 1, 20) == Scan(SkipTable, []);
  }

  lemma SkipRemove()
    ensures RawStep(SkipTable, RawState(2, SkipTable), 30) == RawOut(RawState(3, [SkipSecond]), [])
  {
    assert SkipTable[1..] == [SkipSecond];
    assert RemoveFirst(SkipTable, SkipFirst) == [SkipSecond];
    assert ScanCandidates([SkipSecond], 1, 2, 30) == Scan([SkipSecond], []);
  }

  lemma SkipEnd()
    ensures RawStep(SkipTable, RawState(3, [SkipSecond]), EndOfBurst) == RawOut(RawInit, [])
  {
    assert RemoveFirst([SkipSecond], SkipSecond) == [];
    assert ScanCandidates([], 1, 3, EndOfBurst) == Scan([], []);
  }

  lemma SkipRunFrom3()
    ensures RawRun(SkipTable, RawState(3, [SkipSecond]), [EndOfBurst]) == RawOut(RawInit, [])
  {
    SkipEnd();
    assert RawRun(SkipTable, RawInit, []) == RawOut(RawInit, []);
  }

  lemma SkipRunFrom2()
    ensures RawRun(SkipTable, RawState(2, SkipTable), [30, EndOfBurst]) == RawOut(RawInit, [])
  {
    SkipRemove();
    SkipRunFrom3();
    assert [30, EndOfBurst][1..] == [EndOfBurst];
  }

  lemma SkipRunFrom1()
    ensures RawRun(SkipTable, RawState(1, SkipTable), [20, 30, EndOfBurst]) == RawOut(RawInit, [])
  {
    SkipKeep();
    SkipRunFrom2();
    assert [20, 30, EndOfBurst][1..] == [30, EndOfBurst];
  }

  /**
   * The skipped candidate: with the templates SkipFirst and SkipSecond in
   * that order, replaying SkipSecond matches nothing. At position 2
   * SkipFirst is removed, SkipSecond moves into the slot just examined and
   * is skipped; at position 3 it is too short and is removed.
   */
  lemma SkippedCandidateIsMissed()
    ensures RawRun(SkipTable, RawInit, SkipSecond).matched == []
  {
    SkipStart();
    SkipRunFrom1();
    assert SkipSecond[1..] == [20, 30, EndOfBurst];
  }
}

=== FILE: sony_amp.dfy ===
/**
 * The Sony amplifier's serial command frame. A command is a body
 * [pdc, cmd, zone?, value...] sent as 0x02, the body length, the body and
 * a checksum byte; the amplifier answers in the same format. Only some
 * (pdc, cmd) pairs carry a zone byte.
 */
module SonyAmp {
  import opened Wrappers
  import opened Bits

  const OkResp := 0xFD
  const PdcSoundAdaptor := 0xA3
  const PdcAmp := 0xA0
  const PdcAmpResponse := 0xA8
  const PwrCtrlCmd := 0x60
  const MuteCmd := 0x53
  const StatusReq := 0x82
  const InputSelCmd := 0x42
  const MemWrite := 0xC1
  const MemRead := 0xC2
  const SystemAddrSpace := 2

  /** The byte every frame starts with. */
  const FrameStart := 0x02

  /** The commands that carry a zone byte, by pdc. */
  const ZoneCommands: map<int, set<int>> := map[
    PdcAmp := {StatusReq, PwrCtrlCmd, MuteCmd, InputSelCmd},
    PdcAmpResponse := {StatusReq}
  ]

  predicate IsZoneCommand(pdc: int, cmd: int)
  {
    pdc in ZoneCommands && cmd in ZoneCommands[pdc]
  }

  /**
   * An amplifier command. `value` is None when the command was built
   * without one; a parsed command always has one, possibly empty.
   */
  datatype AmpCmd = AmpCmd(pdc: int, cmd: int, value: Option<seq<int>>, expResp: seq<int>, zone: Option<int>)

  /** The value bytes a command sends: a missing value sends nothing. */
  function ValueOf(c: AmpCmd): seq<int>
  {
    match c.value
    case None => []
    case Some(v) => v
  }

  function Sum(s: seq<int>): int
  {
    if |s| == 0 then 0 else s[0] + Sum(s[1..])
  }

  lemma {:induction false} SumAppend(a: seq<int>, b: seq<int>)
    ensures Sum(a + b) == Sum(a) + Sum(b)
    decreases |a|
  {
    if |a| == 0 {
      assert a + b == b;
    } else {
      assert (a + b)[1..] == a[1..] + b;
      SumAppend(a[1..], b);
    }
  }

  /**
   * `genCrc`: the byte that brings the length plus the sum of the bytes
   * to a multiple of 256. Python's `& 0xFF` on a negative number is the
   * same as Dafny's `% 256`.
   */
  function Checksum(data: seq<int>): (r: byte)
    ensures (|data| + Sum(data) + r) % 256 == 0
  {
    (256 - (|data| + Sum(data))) % 256
  }

  /** No other byte completes the checksum. */
  lemma ChecksumUnique(data: seq<int>, b: int)
    requires 0 <= b < 256 && (|data| + Sum(data) + b) % 256 == 0
    ensures b == Checksum(data)
  {
    var c := Checksum(data);
    var n := |data| + Sum(data);
    assert (b - c) % 256 == ((n + b) - (n + c)) % 256;
    assert -256 < b - c < 256;
  }

  /** `genCrc` as the source writes it: a running sum started at the length. */
  method GenCrc(data: seq<int>) returns (crc: int)
    ensures 0 <= crc < 256
    ensures (|data| + Sum(data) + crc) % 256 == 0
  {
    var checkSum := |data|;
    for i := 0 to |data|
      invariant checkSum == |data| + Sum(data[..i])
    {
      assert data[..i + 1] == data[..i] + [data[i]];
      SumAppend(data[..i], [data[i]]);
      checkSum := checkSum + data[i];
    }
    assert data[..|data|] == data;
    crc := (256 - checkSum) % 256;
  }

  /** The body of a command's frame: pdc, cmd, the zone if there is one, then the value. */
  function Body(c: AmpCmd): (r: seq<int>)
    ensures |r| == 2 + (if c.zone.Some? then 1 else 0) + |ValueOf(c)|
    ensures r[0] == c.pdc && r[1] == c.cmd
    ensures c.zone.Some? ==> r[2] == c.zone.value
    ensures r[|r| - |ValueOf(c)|..] == ValueOf(c)
  {
    (if c.zone.None? then [c.pdc, c.cmd] else [c.pdc, c.cmd, c.zone.value]) + ValueOf(c)
  }

  predicate AllBytes(s: seq<int>)
  {
    forall i :: 0 <= i < |s| ==> 0 <= s[i] < 256
  }

  /**
   * `data()`: the frame for a command. None stands for the overflow the
   * source raises when the length or a body value does not fit in a byte.
   * The frame past the start byte sums to a multiple of 256.
   */
  function Frame(c: AmpCmd): (r: Option<seq<byte>>)
    ensures r.Some? <==> AllBytes(Body(c)) && |Body(c)| < 256
    ensures r.Some? ==> var f := r.value;
      && |f| == |Body(c)| + 3
      && f[0] == FrameStart && f[1] == |Body(c)|
      && f[2..|f| - 1] == Body(c)
      && f[|f| - 1] == Checksum(Body(c))
      && Sum(f[1..]) % 256 == 0
  {
    var body := Body(c);
    if AllBytes(body) && |body| < 256 then
      var f: seq<byte> := [FrameStart, |body|] + body + [Checksum(body)];
      assert f[1..] == [|body|] + body + [Checksum(body)];
      SumAppend([|body|] + body, [Checksum(body)]);
      SumAppend([|body|], body);
      Some(f)
    else
      None
  }

  /** Whether the last byte of a received body is the checksum of the bytes before it. */
  predicate ChecksumMatches(data: seq<byte>)
    requires |data| >= 1
  {
    Checksum(data[..|data| - 1]) == data[|data| - 1]
  }

  /** A checked body as a command: byte 2 is taken out as the zone for a zone command. */
  function Interpret(body: seq<int>): (r: AmpCmd)
    requires |body| >= 3
    ensures r.pdc == body[0] && r.cmd == body[1] && r.expResp == []
    ensures r.zone.Some? <==> IsZoneCommand(body[0], body[1])
    // the value is always present, if only as an empty list
    ensures r.value.Some?
    ensures Body(r) == body
  {
    if IsZoneCommand(body[0], body[1]) then
      AmpCmd(body[0], body[1], Some(body[3..]), [], Some(body[2]))
    else
      AmpCmd(body[0], body[1], Some(body[2..]), [], None)
  }

  /**
   * What `AmpCmdFromData` returns as written: None for three bytes or
   * fewer, a command when the checksum matches, and otherwise the command
   * byte, which its caller's `!= None` test takes for success.
   */
  datatype ParseOutcome = NoCommand | Command(c: AmpCmd) | CmdByte(b: int)

  function AmpCmdFromDataAsWritten(data: seq<byte>): (r: ParseOutcome)
    ensures r.NoCommand? <==> |data| <= 3
    ensures r.CmdByte? <==> |data| > 3 && !ChecksumMatches(data)
    ensures r.CmdByte? ==> r.b == data[1]
    ensures r.Command? ==> Body(r.c) == data[..|data| - 1]
  {
    if |data| > 3 then
      if ChecksumMatches(data) then Command(Interpret(data[..|data| - 1])) else CmdByte(data[1])
    else
      NoCommand
  }

  /** `AmpCmdFromData` with a failed checksum rejected, as its caller expects. */
  function AmpCmdFromData(data: seq<byte>): (r: Option<AmpCmd>)
    ensures r.Some? <==> |data| > 3 && ChecksumMatches(data)
    ensures r.Some? ==> var c := r.value;
      && c.pdc == data[0] && c.cmd == data[1] && c.expResp == []
      && (c.zone.Some? <==> IsZoneCommand(data[0], data[1]))
      && c.value.Some?
      && Body(c) == data[..|data| - 1]
  {
    if |data| > 3 && ChecksumMatches(data) then Some(Interpret(data[..|data| - 1])) else None
  }

  /**
   * The as-written parser accepts every body longer than three bytes,
   * whatever its checksum, and agrees with the corrected one wherever it
   * returns a command.
   */
  lemma AsWrittenAcceptsAnyLongBody(data: seq<byte>)
    ensures !AmpCmdFromDataAsWritten(data).NoCommand? <==> |data| > 3
    ensures AmpCmdFromDataAsWritten(data).Command? <==> AmpCmdFromData(data).Some?
    ensures AmpCmdFromData(data).Some? ==> AmpCmdFromDataAsWritten(data) == Command(AmpCmdFromData(data).value)
  {
  }

  /** A zone-1 power-on body with a zero checksum byte: the as-written parser hands back 0x60 instead of rejecting it. */
  lemma BadChecksumAccepted()
    ensures Checksum([0xA0, 0x60, 0x00, 0x01]) == 251
    ensures AmpCmdFromDataAsWritten([0xA0, 0x60, 0x00, 0x01, 0x00]) == CmdByte(0x60)
    ensures AmpCmdFromData([0xA0, 0x60, 0x00, 0x01, 0x00]) == None
  {
    var data: seq<byte> := [0xA0, 0x60, 0x00, 0x01, 0x00];
    assert data[..4] == [0xA0, 0x60, 0x00, 0x01];
    assert Sum([0xA0, 0x60, 0x00, 0x01]) == 257;
  }

  /**
   * Parsing what follows a frame's two header bytes gives the command
   * back, provided the body has at least three bytes and the zone is
   * present exactly for zone commands. The value comes back present (a
   * missing one as empty) and the expected response empty.
   */
  lemma ParseFrame(c: AmpCmd)
    requires Frame(c).Some? && |Body(c)| >= 3
    requires c.zone.Some? <==> IsZoneCommand(c.pdc, c.cmd)
    ensures AmpCmdFromData(Frame(c).value[2..]) == Some(c.(value := Some(ValueOf(c)), expResp := []))
  {
    var f := Frame(c).value;
    var data := f[2..];
    var body := Body(c);
    assert data[..|data| - 1] == body;
    assert data[|data| - 1] == Checksum(body);
    var p := Interpret(body);
    var want := c.(value := Some(ValueOf(c)), expResp := []);
    if c.zone.Some? {
      assert body[3..] == ValueOf(c);
    } else {
      assert body[2..] == ValueOf(c);
    }
    assert p == want;
  }

  /** Framing a parsed command reproduces the bytes it was parsed from behind the start and length bytes. */
  lemma FrameParsed(data: seq<byte>)
    requires AmpCmdFromData(data).Some? && |data| <= 256
    ensures Frame(AmpCmdFromData(data).value) == Some([FrameStart, |data| - 1] + data)
  {
    var c := AmpCmdFromData(data).value;
    var body := data[..|data| - 1];
    assert Body(c) == body;
    assert data == body + [Checksum(body)];
    assert AllBytes(body);
    var f := Frame(c).value;
    assert f == [FrameStart, |body|] + body + [Checksum(body)];
    assert f == [FrameStart, |data| - 1] + data;
  }

  /** Frames with and without an empty value are the same bytes, yet the commands are unequal. */
  lemma EmptyValueIndistinguishable(pdc: int, cmd: int, expResp: seq<int>, zone: Option<int>)
    ensures Frame(AmpCmd(pdc, cmd, None, expResp, zone)) == Frame(AmpCmd(pdc, cmd, Some([]), expResp, zone))
    ensures AmpCmd(pdc, cmd, None, expResp, zone) != AmpCmd(pdc, cmd, Some([]), expResp, zone)
  {
  }

  /** `__eq__`: every field is compared, and nothing else. */
  predicate SameAmpCmd(a: AmpCmd, b: AmpCmd)
  {
    a.pdc == b.pdc && a.cmd == b.cmd && a.value == b.value && a.expResp == b.expResp && a.zone == b.zone
  }

  lemma SameAmpCmdIsEquality(a: AmpCmd, b: AmpCmd)
    ensures SameAmpCmd(a, b) <==> a == b
  {
  }

  predicate IsMemRead(c: AmpCmd)
  {
    c.pdc in {PdcAmp, PdcAmpResponse} && c.cmd == MemRead
  }

  predicate IsMemWrite(c: AmpCmd)
  {
    c.pdc in {PdcAmp, PdcAmpResponse} && c.cmd == MemWrite
  }

  /** The memory header: address space, address high and low byte, length. */
  function MemHeader(addr: int, len: int): seq<int>
  {
    [SystemAddrSpace, addr / 256, addr % 256, len]
  }

  /** `AmpMemWriteCmd`: Python's `>> 8` and `& 0xff` are Dafny's `/ 256` and `% 256`, negative addresses included. */
  function AmpMemWriteCmd(addr: int, value: seq<int>): (r: AmpCmd)
    ensures IsMemWrite(r) && !IsMemRead(r)
    ensures r.zone.None? && r.expResp == [] && r.value.Some?
    ensures !IsZoneCommand(r.pdc, r.cmd)
  {
    AmpCmd(PdcAmp, MemWrite, Some(MemHeader(addr, |value|) + value), [], None)
  }

  /** `AmpMemReadCmd`. */
  function AmpMemReadCmd(addr: int, size: int): (r: AmpCmd)
    ensures IsMemRead(r) && !IsMemWrite(r)
    ensures r.zone.None? && r.expResp == [] && r.value.Some?
    ensures !IsZoneCommand(r.pdc, r.cmd)
  {
    AmpCmd(PdcAmp, MemRead, Some(MemHeader(addr, size)), [], None)
  }

  /** A memory command whose value holds the header the accessors read. */
  predicate HasMemHeader(c: AmpCmd)
  {
    (IsMemWrite(c) || IsMemRead(c)) && c.value.Some? && |c.value.value| >= 3
  }

  /** `memAddrSpace`. */
  function MemAddrSpace(c: AmpCmd): int
    requires HasMemHeader(c)
  {
    c.value.value[0]
  }

  /** `memAddr`: the high byte shifted up, or-ed with the low byte. */
  function MemAddr(c: AmpCmd): int
    requires HasMemHeader(c) && c.value.value[1] >= 0 && c.value.value[2] >= 0
  {
    BitOr(c.value.value[1] * 256, c.value.value[2])
  }

  /** `memData`: the value past the four header bytes; Python's slice gives [] for a shorter value. */
  function MemData(c: AmpCmd): seq<int>
    requires HasMemHeader(c)
  {
    var v := c.value.value;
    if |v| >= 4 then v[4..] else []
  }

  /** A write command built for a non-negative address reads back its address space, address, length and data. */
  lemma MemWriteAccessors(addr: int, value: seq<int>)
    requires addr >= 0
    ensures var c := AmpMemWriteCmd(addr, value);
      && HasMemHeader(c) && c.value.value[1] >= 0 && c.value.value[2] >= 0
      && MemAddrSpace(c) == SystemAddrSpace
      && MemAddr(c) == addr
      && c.value.value[3] == |value|
      && MemData(c) == value
  {
    OrLowByte(addr / 256, addr % 256);
  }

  /** A read command reads back its address space and address, and carries no data. */
  lemma MemReadAccessors(addr: int, size: int)
    requires addr >= 0
    ensures var c := AmpMemReadCmd(addr, size);
      && HasMemHeader(c) && c.value.value[1] >= 0 && c.value.value[2] >= 0
      && MemAddrSpace(c) == SystemAddrSpace
      && MemAddr(c) == addr
      && c.value.value[3] == size
      && MemData(c) == []
  {
    OrLowByte(addr / 256, addr % 256);
  }

  /** A write to memory can be framed exactly when the address fits in two bytes and the data in the frame. */
  lemma MemWriteFrameable(addr: int, value: seq<int>)
    requires addr >= 0
    ensures Frame(AmpMemWriteCmd(addr, value)).Some? <==> addr < 65536 && AllBytes(value) && |value| <= 249
  {
    var c := AmpMemWriteCmd(addr, value);
    var body := Body(c);
    assert body == [PdcAmp, MemWrite] + MemHeader(addr, |value|) + value;
    if AllBytes(body) {
      assert body[3] == addr / 256;
      forall i | 0 <= i < |value|
        ensures 0 <= value[i] < 256
      {
        assert body[6 + i] == value[i];
      }
    }
  }

  /** A memory write that went through a frame and back reads back the same address and data. */
  lemma MemWriteRoundTrip(addr: int, value: seq<int>)
    requires 0 <= addr < 65536 && AllBytes(value) && |value| <= 249
    ensures var c := AmpMemWriteCmd(addr, value);
      var p := AmpCmdFromData(Frame(c).value[2..]);
      && p.Some? && HasMemHeader(p.value)
      && p.value.value.value[1] >= 0 && p.value.value.value[2] >= 0
      && MemAddr(p.value) == addr && MemData(p.value) == value
  {
    var c := AmpMemWriteCmd(addr, value);
    MemWriteFrameable(addr, value);
    ParseFrame(c);
    MemWriteAccessors(addr, value);
  }

  /** The zone-1 power-on command and its frame on the wire. */
  const Zone1On := AmpCmd(PdcAmp, PwrCtrlCmd, Some([1]), [OkResp], Some(0))

  lemma Zone1OnFrame()
    ensures Frame(Zone1On) == Some([0x02, 0x04, 0xA0, 0x60, 0x00, 0x01, 251])
  {
    var body := Body(Zone1On);
    assert body == [0xA0, 0x60, 0x00, 0x01];
    assert Sum([0xA0, 0x60, 0x00, 0x01]) == 257;
    assert Checksum(body) == 251;
    assert AllBytes(body);
    var f := Frame(Zone1On).value;
    assert f == [FrameStart, |body|] + body + [Checksum(body)];
    assert f == [0x02, 0x04, 0xA0, 0x60, 0x00, 0x01, 251];
  }
}

=== FILE: sony_decoder.dfy ===
/**
 * The Sony decoder: a frame is a start pulse followed by one pulse per bit
 * (2T on for a one, 1T on for a zero, least significant bit first) and ends
 * with a long off time. Sony remotes send every command three times; a
 * frame is passed on only when it repeats the previous error-free frame.
 */
module SonyDecoder {
  import opened Bits
  import opened IrTiming
  import opened IrCommand

  /**
   * The decoder's variables. `error` is set after every end of burst and
   * cleared only by a start pulse, so nothing is decoded from a frame whose
   * start was not seen.
   */
  datatype SonyState = SonyState(
    data: nat, bitCount: nat, prevData: nat, prevBitCount: nat, error: bool, endOfBurst: bool)

  const SonyInit := SonyState(0, 0, 0, 0, true, false)

  datatype SonyOut = SonyOut(state: SonyState, detections: seq<Detection>)

  function SonyDetection(data: nat, width: nat): Detection
  {
    Detection(KindSony, Bits(data), width)
  }

  /** A start pulse: 4T on, 1T off. */
  predicate IsSonyStart(on: int, off: int)
  {
    SonyNearStart(on) && SonyNearOneT(off)
  }

  /** A pulse that can stand for a bit: 1T or 2T on, then 1T off or an end-of-burst gap. */
  predicate IsSonyBit(on: int, off: int)
  {
    (SonyNearOneT(on) || SonyNearTwoT(on)) && (SonyNearOneT(off) || off >= SonyMinEndOff)
  }

  /** `decodeSony`, one (on, off) pulse. */
  function SonyStep(s: SonyState, on: int, off: int): (r: SonyOut)
    ensures |r.detections| <= 1
    ensures forall i :: 0 <= i < |r.detections| ==> r.detections[i].kind == KindSony
    // a start pulse arms the decoder with an empty frame
    ensures IsSonyStart(on, off) ==> !r.state.error && r.state.data == 0 && r.state.bitCount == 0
    // a start pulse ends a frame in progress: it becomes the previous frame and is
    // passed on when it repeats the one before
    ensures IsSonyStart(on, off) && !s.error ==>
      && r.state.prevData == s.data && r.state.prevBitCount == s.bitCount
      && r.detections == (if s.data == s.prevData && s.bitCount == s.prevBitCount
                          then [SonyDetection(s.data, s.bitCount)] else [])
    // the error flag is cleared by a start pulse only
    ensures !IsSonyStart(on, off) && s.error ==> r.state.error && r.detections == []
    ensures !IsSonyStart(on, off) && s.error ==> r.state.data == s.data && r.state.bitCount == s.bitCount
    ensures !IsSonyStart(on, off) && s.error ==>
      r.state.prevData == s.prevData && r.state.prevBitCount == s.prevBitCount
    ensures IsSonyStart(on, off) && s.error ==> r.detections == []
    ensures IsSonyStart(on, off) && s.error ==>
      r.state.prevData == s.prevData && r.state.prevBitCount == s.prevBitCount
    // inside a frame, every pulse adds one bit
    ensures !IsSonyStart(on, off) && !s.error ==> r.state.bitCount == s.bitCount + 1
    // and the new bit, above those already taken, is 1 exactly for a 2T on time
    ensures !IsSonyStart(on, off) && !s.error && s.data < Pow2(s.bitCount) ==>
      r.state.data == s.data + (if SonyNearTwoT(on) then Pow2(s.bitCount) else 0)
    // a pulse that is not a bit spoils the frame: nothing is passed on or remembered
    ensures !IsSonyStart(on, off) && !IsSonyBit(on, off) ==>
      r.state.error && r.detections == []
      && r.state.prevData == s.prevData && r.state.prevBitCount == s.prevBitCount
    // an end-of-burst gap after a good bit completes the frame
    ensures !IsSonyStart(on, off) && !s.error && IsSonyBit(on, off) && off >= SonyMinEndOff ==>
      && r.state.error
      && r.state.prevData == r.state.data && r.state.prevBitCount == r.state.bitCount
      && r.detections == (if r.state.data == s.prevData && r.state.bitCount == s.prevBitCount
                          then [SonyDetection(r.state.data, r.state.bitCount)] else [])
    // any other good bit keeps the frame going and passes nothing on
    ensures !IsSonyStart(on, off) && !s.error && IsSonyBit(on, off) && off < SonyMinEndOff ==>
      !r.state.error && r.detections == []
      && r.state.prevData == s.prevData && r.state.prevBitCount == s.prevBitCount
  {
    var isOffTime1T := SonyNearOneT(off);
    var foundStart := SonyNearStart(on) && isOffTime1T;
    assert s.data < Pow2(s.bitCount) ==> BitOr(s.data, Pow2(s.bitCount)) == s.data + Pow2(s.bitCount) by {
      if s.data < Pow2(s.bitCount) {
        OrFreshBit(s.data, s.bitCount);
      }
    }
    // classify the pulse
    var s1 :=
      if foundStart then s.(endOfBurst := !s.error)
      else if !s.error then
        var isOnTime1T := SonyNearOneT(on);
        var isOnTime2T := SonyNearTwoT(on);
        var endOfBurst := off >= SonyMinEndOff;
        s.(endOfBurst := endOfBurst,
           error := s.error || !(isOffTime1T || endOfBurst) || !(isOnTime1T || isOnTime2T),
           data := BitOr(s.data, if isOnTime2T then Pow2(s.bitCount) else 0),
           bitCount := s.bitCount + 1)
      else s.(error := true);
    // at the end of a burst, accept a frame that repeats the previous one
    var accept := s1.endOfBurst && !s1.error;
    var emitted := if accept && s1.prevData == s1.data && s1.prevBitCount == s1.bitCount
                   then [SonyDetection(s1.data, s1.bitCount)] else [];
    var s2 :=
      if s1.endOfBurst then
        (if accept then s1.(prevData := s1.data, prevBitCount := s1.bitCount) else s1).(error := true)
      else s1;
    // a start pulse opens a new frame
    var s3 := if foundStart then s2.(error := false, data := 0, bitCount := 0) else s2;
    SonyOut(s3, emitted)
  }

  /** The decoder run over a pulse train. */
  function SonyRun(s: SonyState, ps: seq<Pulse>): SonyOut
    decreases |ps|
  {
    if |ps| == 0 then SonyOut(s, [])
    else
      var first := SonyStep(s, ps[0].on, ps[0].off);
      var rest := SonyRun(first.state, ps[1..]);
      SonyOut(rest.state, first.detections + rest.detections)
  }

  /** A run whose first step is known continues from that step's state. */
  lemma SonyRunAfter(s: SonyState, ps: seq<Pulse>, first: SonyOut)
    requires |ps| > 0 && SonyStep(s, ps[0].on, ps[0].off) == first
    ensures var rest := SonyRun(first.state, ps[1..]);
      SonyRun(s, ps) == SonyOut(rest.state, first.detections + rest.detections)
  {
  }

  /** Running over two trains is running over the first, then the second from where it left off. */
  lemma {:induction false} SonyRunAppend(s: SonyState, a: seq<Pulse>, b: seq<Pulse>)
    ensures var ra := SonyRun(s, a);
      var rb := SonyRun(ra.state, b);
      SonyRun(s, a + b) == SonyOut(rb.state, ra.detections + rb.detections)
    decreases |a|
  {
    if |a| == 0 {
      assert a + b == b;
    } else {
      var ab, rest := a + b, a[1..];
      assert ab[0] == a[0] && ab[1..] == rest + b;
      var first := SonyStep(s, a[0].on, a[0].off);
      SonyRunAfter(s, ab, first);
      SonyRunAfter(s, a, first);
      SonyRunAppend(first.state, rest, b);
      var ra := SonyRun(first.state, rest);
      var rb := SonyRun(ra.state, b);
      assert first.detections + (ra.detections + rb.detections) == (first.detections + ra.detections) + rb.detections;
    }
  }
}

=== FILE: wrappers.dfy ===
/** Optional values: Python's `None` next to a present value. */
module Wrappers {

  datatype Option<+T> = None | Some(value: T) {

    /** Returns the value held in Some, or `default` for None. */
    function GetOr(default: T): T {
      match this
      case Some(v) => v
      case None() => default
    }
  }
}
